=== FILE: README.md ===
# Stone Sheets Sheers client: session, board, lobby and sign-in as verified state machines

The web client of the card game "Stone Sheets Sheers" talks to its server through one shared
session object, `WebSocketService`, a socket.io client with lobby commands, game
notifications and push subscriptions. Three screens drive it:

- the sign-in screen validates the form and asks the authentication context to log in,
  register or open a guest session;
- the lobby screen shows the open lobbies the server pushes, creates lobbies through a
  dialog, and joins them publicly or by private code;
- the game board shows the game state the server pushes, reveals the played cards for a
  moment after each round, and plays or draws cards.

This project models each of the four as an immutable state with pure transition functions in
Dafny, and proves what each promises its callers.

| file | module | models |
|---|---|---|
| `common.dfy` | `Common` | `Option`, JavaScript truthiness of an optional string, occurrence counting |
| `protocol.dfy` | `Protocol` | the shapes the server sends: lobby summaries, game snapshots, acknowledgment responses |
| `session.dfy` | `SocketService` | `src/services/websocketservice.js`: the handle, the reconnect counter, the listener registry, every public method as a `Call`, transport happenings as `TransportEvent` |
| `session_proofs.dfy` | `SocketServiceProofs` | properties across sequences of calls and transport happenings |
| `screen.dfy` | `Screen` | what a screen asks of the outside world (`Effect`): a session call, an authentication request, a navigation |
| `game.dfy`, `game_proofs.dfy` | `GamePage`, `GamePageProofs` | `src/pages/game.jsx` |
| `lobby.dfy`, `lobby_proofs.dfy` | `LobbyPage`, `LobbyPageProofs` | `src/pages/Lobby.jsx`, including `CreateLobbyModal` |
| `login.dfy`, `login_proofs.dfy` | `LoginPage`, `LoginPageProofs` | `src/pages/Login.jsx` |

How the model is set up:

- **The session.** The socket is data: its options, a connected flag, and a map from topic
  to the ordered list of registered callbacks. A topic is one of the three connection events,
  one of the seven push categories, or any other event name; `TopicOf` maps an event name to
  its topic and `TopicName` maps it back. The three base handlers and every screen's handler
  appear in those lists as values. `sent` logs every message handed to the socket, with the
  emitted event as a `Request` whose `Name` is the wire name. A socket that `init` replaces
  without a `disconnect` is not closed: it moves to `replaced`, keeps connecting, and its base
  handlers still act on the service's counter (`DeliverReplaced`).
- **Call outcomes.** A call returns an `Outcome`:
  - `Returned`;
  - `Threw`, for a `TypeError` from dereferencing a null handle;
  - `Pending(message)`, for an acknowledged command waiting for the server;
  - `Settled(...)`, for a command whose Promise has already rejected.
- **Server answers.** The server's acknowledgment is turned into a resolution or a rejection
  by `Settle`.
- **Screens.** Each screen is a `Step` from (state, event) to (state, effects). Events are:
  - server pushes;
  - clicks and edits;
  - the settling of an awaited call;
  - for the board, the firing of a pending timer.

  The lobby accepts a click on a lobby's join button while the create dialog is open. On
  screen, the dialog's full-window overlay (Lobby.jsx:151) covers the list. The model allows
  these clicks; none of its properties depends on their being blocked.
- **Timers.** A `setTimeout` becomes a pending `Timer` on the board. The environment may fire
  any pending one, so the order of firings is left open.

## Model

| member | source | states |
|---|---|---|
| SocketService.New | src/services/websocketservice.js:5-10 | the service starts with no handle, a counter of zero and nothing sent |
| SocketService.InitSocket | src/services/websocketservice.js:12-41 | while the socket is connected `init` changes nothing; otherwise a new, unconnected socket carrying the token, reconnection on and a cap of 5 takes the handle, with exactly the three base handlers registered and nothing sent; the socket the handle held, if any, is set aside open, not closed |
| SocketService.Deliver | src/services/websocketservice.js:27-41 | `connect` marks the socket connected and resets the counter to 0 while the base handler is registered; `connect_error` adds one per registered base handler; `disconnect` only marks it unconnected; the registry and the log never change |
| SocketService.DeliverReplaced | src/services/websocketservice.js:15-36 | a socket `init` set aside still runs its own listeners: its `connect` resets the counter to 0 while its base handler is registered, its `connect_error` adds one per registered base handler, and the handle, the log and every other socket stay as they were |
| SocketService.Settle | src/services/websocketservice.js:47-51 | exactly one of resolve or reject: it resolves with the whole response exactly when `response.error` is falsy, otherwise it rejects with that non-empty error |
| SocketService.Emit | src/services/websocketservice.js:44-95 | on a live socket one message is appended to the log, and a command is left waiting for its acknowledgment while a notification returns; on a null handle nothing is sent and the call fails |
| SocketService.RequestOf | src/services/websocketservice.js:44-95 | each call's message carries exactly its own arguments: `{name, isPrivate}` with `isPrivate` defaulting to `false`, the lobby id, the code, the game id, `{gameId, cardIndex}`, or nothing for `leaveLobby`; an acknowledgment is awaited exactly for the three commands |
| SocketService.TopicOf | src/services/websocketservice.js:27-134 | the listener list an event name addresses is named by exactly that event name, and is a connection event's or a category's list whenever the name is one of theirs |
| SocketService.TopicRoundTrip | src/services/websocketservice.js:98-129 | a callback registered under a topic is addressed again by that topic's event name, so `off('gameUpdate', cb)` reaches what `onGameUpdate(cb)` registered |
| SocketService.Register | src/services/websocketservice.js:98-124 | `on*` appends the callback to its own category only; every other topic's list, the options and the connection state stay as they were; on a null handle it throws |
| SocketService.Unregister | src/services/websocketservice.js:127-129 | `off` removes the first registration of that callback from the list the event name addresses only; other lists are untouched; on a null handle it throws |
| SocketService.UnregisterAll | src/services/websocketservice.js:132-134 | `removeAllListeners` empties the list the event name addresses and no other; on a null handle it throws |
| SocketService.ReleaseSocket | src/services/websocketservice.js:137-142 | `disconnect` leaves no handle, keeps the counter and the log, and with no handle changes nothing |
| SocketService.Invoke | src/services/websocketservice.js:12-142 | no call changes the counter; only `init` changes the socket count (`created`) or sets a socket aside; on a null handle every call but `init` and `disconnect` fails and changes nothing; every command or notification on a live socket sends exactly its own message; no other call sends anything |
| SocketServiceProofs.InvokeKeepsWellFormed | src/services/websocketservice.js:27-41 | no single call can register the counting `connect_error` handler twice on any socket the service still hears from, the handle's or a replaced one |
| SocketServiceProofs.ReachableIsWellFormed | src/services/websocketservice.js:12-41 | over any sequence of calls and transport happenings, on the current socket or on replaced ones, the counting handler stays registered at most once |
| SocketServiceProofs.ConnectFailureAddsOne | src/services/websocketservice.js:33-36 | while the base handler is registered, each `connect_error` adds exactly one attempt |
| SocketServiceProofs.FailuresAccumulate | src/services/websocketservice.js:33-36 | while the base handler is registered once, `n` failed attempts in a row add exactly `n` to the counter and leave the socket as it was |
| SocketServiceProofs.FreshSocketCountsAttempts | src/services/websocketservice.js:28-36 | on a socket `init` just installed, `connect` resets the counter to 0 and `connect_error` adds exactly one |
| SocketServiceProofs.AttemptsCanExceedCap | src/services/websocketservice.js:8-36 | five failures, `disconnect`, `init` and one more failure leave the counter at 6, above the cap of 5 |
| SocketServiceProofs.InitBeforeConnectOpensAgain | src/services/websocketservice.js:12-23 | before the first `connect`, a second `init` opens another socket and sets the first one aside without closing it |
| SocketServiceProofs.ReplacedConnectResetsCounter | src/services/websocketservice.js:13-36 | after `init` replaces an unconnected socket and the new one fails once, the old socket's `connect` zeroes the counter while the handle's socket stays unconnected |
| SocketServiceProofs.NullHandleCallsFail | src/services/websocketservice.js:44-134 | with no handle, every call except `init` in any sequence fails (or, for `disconnect`, returns) and leaves the service unchanged |
| SocketServiceProofs.CallsAfterDisconnectFail | src/services/websocketservice.js:137-142 | after `disconnect`, no call but `init` sends anything, and every one but `disconnect` fails |
| SocketServiceProofs.DisconnectIsIdempotent | src/services/websocketservice.js:137-142 | a second `disconnect` changes nothing |
| SocketServiceProofs.RegistrationsReturn | src/services/websocketservice.js:98-124 | on an open socket any sequence of `on*` calls returns every time, sends nothing and keeps the socket's options |
| SocketServiceProofs.RegistrationsAppend | src/services/websocketservice.js:98-124 | on an open socket any sequence of `on*` calls appends to each category's list exactly the callbacks subscribed to it, in call order, after the ones already there |
| SocketServiceProofs.RunAppend | src/services/websocketservice.js:12-142 | running two call sequences one after the other is the same as running their concatenation, outcomes included |
| SocketServiceProofs.OnThenOffRestores | src/services/websocketservice.js:98-129 | subscribing a new callback and then unsubscribing it by the category's event name leaves every list as it was |
| SocketServiceProofs.RemovedBaseHandlersStopCounting | src/services/websocketservice.js:132-134 | `removeAllListeners('connect_error')` removes the counting handler, so a later failure leaves the counter as it was; `removeAllListeners('connect')` likewise stops a connect from resetting it |
| SocketServiceProofs.CreateLobbyDefaultsToPublic | src/services/websocketservice.js:44-46 | `createLobby(name)` is the same call as `createLobby(name, false)` and sends `{name, isPrivate: false}` under `createLobby` with an acknowledgment |
| SocketServiceProofs.EmitSendsOneMessage | src/services/websocketservice.js:44-95 | each command or notification sends exactly one message under its own method name, expecting an acknowledgment exactly when it is a command |
| SocketServiceProofs.MessagesIdentifyCalls | src/services/websocketservice.js:44-95 | two calls send the same message exactly when they are the same call, or two `createLobby` calls with the same name whose flags agree once the default `false` is applied |
| Screen.GamePath | src/pages/Lobby.jsx:27 | the board's route is `/game/` followed by exactly the game id |
| GamePage.Mount | src/pages/game.jsx:12-15 | the board mounts loading, for its game and user, with no selection, both slots empty, results hidden and no timer pending |
| GamePage.HandleGameUpdate | src/pages/game.jsx:26-28 | the pushed snapshot becomes the game state and the board is no longer loading; nothing else changes |
| GamePage.HandleCardPlayed | src/pages/game.jsx:30-35 | the card goes to this user's slot exactly when the player is this user, and to the opponent's otherwise; the other slot and the rest of the board keep their values |
| GamePage.HandleRoundComplete | src/pages/game.jsx:37-43 | results become visible and exactly one more reveal clear is pending; nothing else changes |
| GamePage.HandleGameOver | src/pages/game.jsx:45-50 | exactly one more exit is pending; nothing else changes |
| GamePage.FireTimer | src/pages/game.jsx:39-49 | the fired timer and only it leaves the pending set; a reveal clear empties both slots and hides results without any effect; an exit navigates once to `/lobby` and changes nothing else |
| GamePage.HandlePlayCard | src/pages/game.jsx:62-67 | with no selection nothing happens; with one, exactly one `playCard` for this game goes out and only the selection is cleared |
| GamePage.HandleDrawCards | src/pages/game.jsx:69-71 | the draw handler produces exactly one effect, a fire-and-forget call whose wire message is `drawCards` carrying this board's game id and awaiting no acknowledgment (websocketservice.js:93-95) |
| GamePage.Face | src/pages/game.jsx:99-109 | a played card's face is drawn exactly when the board is loaded, results are showing and the slot holds a card, and it is that card |
| GamePage.Step | src/pages/game.jsx:26-147 | only a timer, the play click and the draw click produce effects; a click on a card, the play button or the draw button that is not drawn, or a timer that is not pending, changes nothing; clicking a drawn card selects exactly that index and changes nothing else; the draw click never changes the board |
| GamePageProofs.EffectsAreOwn | src/pages/game.jsx:45-71 | whatever happens, the board only plays or draws in its own game and only navigates to `/lobby` |
| GamePageProofs.ExitsMatchGameOvers | src/pages/game.jsx:45-50 | pending exits plus navigations made always equal pending exits at the start plus `gameOver` events received |
| GamePageProofs.NavigationsBoundedByGameOvers | src/pages/game.jsx:45-50 | from a freshly mounted board there is at most one navigation per `gameOver` |
| GamePageProofs.StepKeepsRevealPending | src/pages/game.jsx:37-43 | no event leaves results showing without a pending reveal clear |
| GamePageProofs.RevealAlwaysPending | src/pages/game.jsx:37-43 | over any event sequence, results showing always means a reveal clear is pending |
| GamePageProofs.LoadingUntilFirstUpdate | src/pages/game.jsx:73-79 | until the first `gameUpdate` the board stays on "Loading game..." and sends nothing |
| GamePageProofs.GameUpdateIsIdempotent | src/pages/game.jsx:26-28 | a snapshot replaces the game state whatever it was, so delivering it twice is the same as once |
| GamePageProofs.LaterCardOverwrites | src/pages/game.jsx:30-35 | a later card from the same player overwrites the earlier one |
| GamePageProofs.RevealThenClear | src/pages/game.jsx:37-43 | `roundComplete` shows results with the played cards kept; firing its timer empties both slots, hides results and leaves the other timers pending |
| GamePageProofs.PlayNeedsSelection | src/pages/game.jsx:62-67 | the play click does nothing without a selection; with one it sends `playCard(gameId, selected)` and clears the selection |
| GamePageProofs.DrawOnlyWhenAllowed | src/pages/game.jsx:113-120 | the draw click sends `drawCards(gameId)` exactly when the snapshot allows drawing, and never changes the board |
| GamePageProofs.SelectCard | src/pages/game.jsx:127-133 | clicking a drawn card selects exactly that index and effects nothing; a card not drawn cannot be selected |
| GamePageProofs.PlaysWereClicked | src/pages/game.jsx:127-147 | starting with no selection, over any event sequence a selection exists only on a loaded board and names a clicked card, and every `playCard` the board sends carries the index of a card the user clicked |
| GamePageProofs.FacesAreCleared | src/pages/game.jsx:37-43 | from mount, over any event sequence, a played card's face is drawn only while a reveal clear is pending |
| GamePageProofs.RevealScenario | src/pages/game.jsx:30-43 | after the opponent's and this user's cards and `roundComplete`, both faces show the right cards; the timer then empties both slots |
| GamePageProofs.RepeatedGameOverNavigatesTwice | src/pages/game.jsx:45-50 | `gameOver` delivered twice leads to two navigations |
| GamePageProofs.PendingClearWipesNextCard | src/pages/game.jsx:37-43 | a reveal clear that fires after the next round's first card has arrived wipes that card |
| GamePageProofs.MountJoinsGame | src/pages/game.jsx:17-55 | mounting opens a socket with the token, sends one `joinGame` for this game, and registers each of the four handlers once, with no call failing |
| GamePageProofs.UnmountReleasesSocket | src/pages/game.jsx:57-59 | leaving the board drops the shared handle without sending anything |
| LobbyPage.ButtonLabel | src/pages/Lobby.jsx:119-121 | the join button reads "Full" exactly when the lobby has two or more players, and "Join Game" exactly when it has fewer |
| LobbyPage.Mount | src/pages/Lobby.jsx:9-11 | the lobby mounts with an empty list, the dialog hidden and an empty code box |
| LobbyPage.HandleLobbyUpdate | src/pages/Lobby.jsx:21-23 | the pushed list becomes the shown list and nothing else changes |
| LobbyPage.HandleGameStart | src/pages/Lobby.jsx:26-28 | `gameStart` navigates once, to `/game/` followed by the payload's game id |
| LobbyPage.OpenCreate | src/pages/Lobby.jsx:128-143 | "Create Game" shows the dialog; a newly shown dialog starts from `{name: '', isPrivate: false}`, and one already showing keeps its form |
| LobbyPage.HandleSubmit | src/pages/Lobby.jsx:145-148 | a submit asks the session for exactly one `createLobby` carrying the form's name and its flag as given |
| LobbyPage.CreateDone | src/pages/Lobby.jsx:37-41 | a resolved create hides the dialog and changes nothing else; a rejected one changes nothing |
| LobbyPage.JoinPrivateDone | src/pages/Lobby.jsx:54-58 | a resolved private join empties the code box and changes nothing else; a rejected one changes nothing |
| LobbyPage.Step | src/pages/Lobby.jsx:15-133 | only `lobbyUpdate` changes the list; only `gameStart`, a submit, a join and a private join produce effects |
| LobbyPageProofs.ListIsLastPushed | src/pages/Lobby.jsx:21-23 | after any event sequence the shown list is the one pushed last, or the initial one if none was pushed |
| LobbyPageProofs.UpdateReplacesList | src/pages/Lobby.jsx:21-23 | two updates in a row leave only the second list |
| LobbyPageProofs.JoinRule | src/pages/Lobby.jsx:110-121 | a lobby's button is enabled exactly when it has fewer than two players; it reads "Full" exactly when it has two or more |
| LobbyPageProofs.JoinSendsLobbyId | src/pages/Lobby.jsx:116-119 | an enabled join button asks to join exactly that lobby's id; a disabled one does nothing |
| LobbyPageProofs.GameStartNavigates | src/pages/Lobby.jsx:26-28 | `gameStart` navigates to `/game/<gameId>` and changes nothing on the page |
| LobbyPageProofs.NavigationsAreGameStarts | src/pages/Lobby.jsx:26-28 | over any event sequence the lobby's navigations are, in order, exactly one `/game/<gameId>` per `gameStart` it received |
| LobbyPageProofs.CreateClosesOnlyOnSuccess | src/pages/Lobby.jsx:35-42 | after `createLobby` settles, the dialog is showing exactly when it was showing and the call was rejected; a rejection changes nothing at all |
| LobbyPageProofs.PrivateCodeClearedOnlyOnSuccess | src/pages/Lobby.jsx:52-59 | after `joinPrivateLobby` settles, a non-empty code is emptied exactly when the call resolved; a rejection changes nothing at all |
| LobbyPageProofs.JoinPrivateSendsCode | src/pages/Lobby.jsx:52-55 | "Join Private" sends the code in the box |
| LobbyPageProofs.ReopenedDialogIsBlank | src/pages/Lobby.jsx:139-143 | a dialog edited, cancelled and opened again starts from the blank form |
| LobbyPageProofs.SubmitPassesForm | src/pages/Lobby.jsx:139-166 | opening the dialog, typing a name, setting the flag and submitting sends `createLobby` with exactly that name and flag, and the dialog stays open |
| LobbyPageProofs.SubmitReachesServer | src/pages/Lobby.jsx:35-38 | the dialog's request reaches the session as one acknowledged `createLobby` message carrying the name and flag |
| LobbyPageProofs.OneOpenLobby | src/pages/Lobby.jsx:105-122 | a pushed list with one lobby of one player shows one lobby that can be joined, labelled "Join Game" |
| LobbyPageProofs.MountSubscribes | src/pages/Lobby.jsx:15-28 | mounting opens a socket with the token and registers the two handlers once each, sending nothing and with no call failing |
| LobbyPageProofs.UnmountReleasesSocket | src/pages/Lobby.jsx:30-32 | leaving the lobby drops the shared handle without sending anything |
| LoginPage.Request | src/pages/Login.jsx:28-30 | login mode asks for `login` and register mode for `register`, with the typed name and password |
| LoginPage.Mount | src/pages/Login.jsx:8-14 | the screen mounts in login mode with an empty form and no error shown |
| LoginPage.HandleSubmit | src/pages/Login.jsx:19-30 | a form that passes the check clears the error and makes exactly one request; one that fails shows "Passwords do not match" and makes none; mode and form are kept |
| LoginPage.Conclude | src/pages/Login.jsx:32-46 | success navigates to `/lobby` and changes nothing; failure shows the answer's error, changes nothing else and does not navigate |
| LoginPage.Step | src/pages/Login.jsx:52-95 | switching modes and editing fields make no request and leave the error as it is |
| LoginPageProofs.MismatchShortCircuits | src/pages/Login.jsx:23-26 | the mismatch error appears, and no request is made, exactly in register mode with differing passwords |
| LoginPageProofs.LoginIgnoresConfirm | src/pages/Login.jsx:23-30 | in login mode the confirm field's content plays no part in a submit |
| LoginPageProofs.SubmitIgnoresOldError | src/pages/Login.jsx:21 | what a submit does does not depend on the error shown before it |
| LoginPageProofs.SubmitAsksOnce | src/pages/Login.jsx:28-30 | a submit that passes the check asks exactly once, for `login` or `register` as the mode says |
| LoginPageProofs.SignInOutcome | src/pages/Login.jsx:32-46 | for the form and for guest sign-in alike, the screen navigates to `/lobby` exactly when the answer is a success and otherwise shows the answer's error; only the form clears an old error |
| LoginPageProofs.NavigationsAreSuccesses | src/pages/Login.jsx:32-46 | over any event sequence the screen navigates exactly as many times as it received successful answers |
| LoginPageProofs.RegisterAfterMismatch | src/pages/Login.jsx:19-36 | a register attempt with mismatched passwords shows the mismatch and sends nothing; correcting it and succeeding requests `register` once and goes to the lobby with no error shown |

## Behaviour to note

- `init` does nothing only while the socket is connected (websocketservice.js:13). Before the
  first `connect` it opens another socket and sets the previous one aside without closing it
  (`InitBeforeConnectOpensAgain`). The old socket's base handlers still act on the counter:
  its `connect` zeroes it while the handle's socket is not connected
  (`ReplacedConnectResetsCounter`).
- The reconnect counter is only ever zeroed by a `connect` and raised by a `connect_error`
  (websocketservice.js:28-36). Neither `init` nor `disconnect` resets it, so failures on a
  second socket add to the first's and the counter can pass 5 (`AttemptsCanExceedCap`).
- With no handle (websocketservice.js:44-142, `NullHandleCallsFail`):
  - the three acknowledged commands return a Promise that rejects with the `TypeError` its
    executor raises;
  - notifications, `on*`, `off` and `removeAllListeners` throw that `TypeError` synchronously;
  - `disconnect` does nothing.
- The board's timeouts are never cleared (game.jsx:39-49). A repeated `gameOver` navigates
  twice (`RepeatedGameOverNavigatesTwice`). A reveal clear still pending when the next round
  begins wipes that round's first card (`PendingClearWipesNextCard`).

## Left out

- Push events a replaced socket receives: the screens' handlers registered on it would still
  run, but a screen's event sequence does not say which socket delivered an event, so the
  screens' models are unaffected.
- socket.io itself: the transport, the real reconnection schedule with its 1000–5000 ms
  delays, and listener dispatch. Options, the connected flag and the ordered registry stand in
  for it, and `Deliver` stands in for a connect outcome reported to the listeners.
- The `gameCallbacks` map the constructor creates: nothing reads or writes it.
- Wall-clock time: the 2000 ms reveal and 3000 ms exit delays are kept only as constants.
  Timers fire when the environment chooses.
- `localStorage`: the token is a parameter of the mount calls.
- `console` logging, which is the only thing the `disconnect` base handler and the screens'
  `catch` blocks do.
- The authentication context (`login`, `register`, `loginAsGuest`, `logout`, `user`): it is
  not part of this model. Its requests are `Authenticate` effects and its answers are
  `AuthSettled` events carrying `{success, error}`; `error` is taken to be a string.
- React scheduling, the re-run of the mount effects when their dependencies change, and the
  interleaving of promise continuations with other events: a settlement is one event, applied
  to the state current when it arrives.
- An acknowledgment with a null or undefined response: the callback would throw inside the
  socket library and the Promise would stay pending.
- Payload shapes the screens do not inspect: the `roundComplete` result and the `gameOver`
  data are ignored by the board and carry nothing here. A null `gameUpdate` payload is not
  modelled: a snapshot is always present.
- Rendering, class names and layout. The screens' `Card` is taken to be the component
  `src/components/ui/card.jsx` exports by default: it draws its children and passes a click
  on to `onClick` unless `isDisabled` is set, which no screen of the core does. As written,
  game.jsx:5 and Lobby.jsx:5 import a named `Card` that card.jsx does not export (it exports
  `PlayerCard`, `PlayedCard` and a default), so rendering a hand card, a played-card slot, a
  lobby entry or the create dialog would fail on an undefined component. Login.jsx:5 imports
  the default, from the path `ui/Card` that differs from the file's name in case. The model
  assumes every `Card` renders; the rules it proves about what is drawn and clicked hold for
  the screens once that import binds the component. `src/app.jsx` routes on an
  authentication context that is not part of this model.
- The value `init` returns, which no screen uses.

=== FILE: common.dfy ===
/** Value types shared by every part of the card-game client model. */
module Common {

  /** A value that JavaScript may hold as `null` or `undefined`: `None` stands for both. */
  datatype Option<+T> = None | Some(value: T) {

    /** The held value, or `default` when absent (a JavaScript default parameter). */
    function GetOr(default: T): T {
      match this
      case Some(v) => v
      case None => default
    }
  }

  /** JavaScript truthiness of a possibly absent string: `null`, `undefined` and `''` are falsy. */
  predicate Truthy(s: Option<string>) {
    s.Some? && s.value != ""
  }

  /** Number of occurrences of `x` in `xs`. */
  function Count<T(==)>(xs: seq<T>, x: T): nat {
    multiset(xs)[x]
  }
}

=== FILE: game.dfy ===
/**
 The game board screen (`Game`): its four pieces of state, the handlers for the pushed events
 it subscribes to, the local play and draw actions, and what the board shows.

 Each `setTimeout` the screen starts is a pending `Timer` on the board; the environment fires
 pending timers in any order it likes (`TimerFires(i)` fires the i-th), so the 2000 ms and
 3000 ms delays survive only as constants.
 */
module GamePage {
  import opened Common
  import opened Protocol
  import SocketService
  import opened Screen

  const RevealDelayMs: nat := 2000
  const ExitDelayMs: nat := 3000

  /** `playedCards`: `player1` is this user's slot, `player2` the opponent's. */
  datatype Slots = Slots(player1: Option<Card>, player2: Option<Card>)

  const NoCards := Slots(None, None)

  /** A pending timeout: the reveal clear `roundComplete` schedules, or the exit `gameOver` schedules. */
  datatype Timer = ClearReveal | ExitToLobby

  datatype Board = Board(
    gameId: string,
    userId: string,
    gameState: Option<Snapshot>,
    selectedCard: Option<nat>,
    playedCards: Slots,
    showResults: bool,
    timers: seq<Timer>)

  /** What the screen can be told or asked to do. */
  datatype Event =
    | GameUpdate(state: Snapshot)
    | CardPlayed(playerId: string, card: Card)
    | RoundComplete
    | GameOver
    | TimerFires(index: nat)
    | ClickCard(index: nat)
    | ClickPlay
    | ClickDraw

  /** The board as the screen mounts for game `gameId` and signed-in user `userId`. */
  function Mount(gameId: string, userId: string): (b: Board)
    ensures IsLoading(b) && b.gameId == gameId && b.userId == userId
    ensures b.selectedCard.None? && b.playedCards == NoCards && !b.showResults && b.timers == []
  {
    Board(gameId, userId, None, None, NoCards, false, [])
  }

  /** The tags of the four handlers the screen subscribes on mount. */
  const UpdateTag := "Game.handleGameUpdate"
  const CardTag := "Game.handleCardPlayed"
  const RoundTag := "Game.handleRoundComplete"
  const OverTag := "Game.handleGameOver"

  /** The mount effect: `init`, join the game's room, subscribe four handlers. */
  function MountCalls(token: string, gameId: string): seq<SocketService.Call> {
    [SocketService.Init(token), SocketService.JoinGame(gameId)] + Subscriptions()
  }

  function Subscriptions(): seq<SocketService.Call> {
    [ SocketService.On(SocketService.GameUpdate, UpdateTag),
      SocketService.On(SocketService.CardPlayed, CardTag),
      SocketService.On(SocketService.RoundComplete, RoundTag),
      SocketService.On(SocketService.GameOver, OverTag) ]
  }

  /** The mount effect's cleanup. */
  function UnmountCalls(): seq<SocketService.Call> {
    [SocketService.Disconnect]
  }

  /** `!gameState`: the screen shows "Loading game..." and nothing else. */
  predicate IsLoading(b: Board) {
    b.gameState.None?
  }

  /** `handleGameUpdate`: the snapshot replaces the whole game state. */
  function HandleGameUpdate(b: Board, state: Snapshot): (r: Board)
    ensures r.gameState == Some(state) && !IsLoading(r)
    ensures r.(gameState := b.gameState) == b
  {
    b.(gameState := Some(state))
  }

  /** `handleCardPlayed`: the card goes to this user's slot when the player is this user, and to
      the opponent's slot otherwise; the other slot keeps its card. */
  function HandleCardPlayed(b: Board, playerId: string, card: Card): (r: Board)
    ensures playerId == b.userId ==> r.playedCards.player1 == Some(card) && r.playedCards.player2 == b.playedCards.player2
    ensures playerId != b.userId ==> r.playedCards.player2 == Some(card) && r.playedCards.player1 == b.playedCards.player1
    ensures r.(playedCards := b.playedCards) == b
  {
    if playerId == b.userId then b.(playedCards := b.playedCards.(player1 := Some(card)))
    else b.(playedCards := b.playedCards.(player2 := Some(card)))
  }

  /** `handleRoundComplete`: results become visible and one reveal clear is scheduled. */
  function HandleRoundComplete(b: Board): (r: Board)
    ensures r.showResults
    ensures Count(r.timers, ClearReveal) == Count(b.timers, ClearReveal) + 1
    ensures |r.timers| == |b.timers| + 1 && r.timers[..|b.timers|] == b.timers
    ensures r.(showResults := b.showResults, timers := b.timers) == b
  {
    b.(showResults := true, timers := b.timers + [ClearReveal])
  }

  /** `handleGameOver`: one exit is scheduled; nothing else changes. */
  function HandleGameOver(b: Board): (r: Board)
    ensures Count(r.timers, ExitToLobby) == Count(b.timers, ExitToLobby) + 1
    ensures |r.timers| == |b.timers| + 1 && r.timers[..|b.timers|] == b.timers
    ensures r.(timers := b.timers) == b
  {
    b.(timers := b.timers + [ExitToLobby])
  }

  /** The i-th pending timeout runs and is gone: a reveal clear empties both slots and hides
      results; an exit navigates to the lobby once. */
  function FireTimer(b: Board, i: nat): (r: (Board, seq<Effect>))
    requires i < |b.timers|
    ensures |r.0.timers| == |b.timers| - 1
    ensures forall k :: 0 <= k < i ==> r.0.timers[k] == b.timers[k]
    ensures forall k :: i <= k < |r.0.timers| ==> r.0.timers[k] == b.timers[k + 1]
    ensures b.timers[i] == ClearReveal ==>
      && r.1 == []
      && r.0.playedCards == NoCards && !r.0.showResults
      && r.0.(playedCards := b.playedCards, showResults := b.showResults, timers := b.timers) == b
    ensures b.timers[i] == ExitToLobby ==>
      && r.1 == [Navigate(LobbyPath)]
      && r.0.(timers := b.timers) == b
  {
    var rest := b.timers[..i] + b.timers[i + 1..];
    match b.timers[i]
    case ClearReveal => (b.(showResults := false, playedCards := NoCards, timers := rest), [])
    case ExitToLobby => (b.(timers := rest), [Navigate(LobbyPath)])
  }

  /** Firing takes exactly the fired timer out of the pending ones. */
  lemma FireTimerRemovesOne(b: Board, i: nat)
    requires i < |b.timers|
    ensures multiset(FireTimer(b, i).0.timers) == multiset(b.timers) - multiset{b.timers[i]}
  {
    var rest := FireTimer(b, i).0.timers;
    assert rest == b.timers[..i] + b.timers[i + 1..];
    assert b.timers == b.timers[..i] + [b.timers[i]] + b.timers[i + 1..];
  }

  /** `handlePlayCard(cardIndex)`: with no selection nothing is sent; otherwise one `playCard`
      for this game goes out and the selection is cleared. */
  function HandlePlayCard(b: Board, cardIndex: nat): (r: (Board, seq<Effect>))
    ensures b.selectedCard.None? ==> r == (b, [])
    ensures b.selectedCard.Some? ==>
      && r.1 == [Send(SocketService.PlayCard(b.gameId, cardIndex))]
      && r.0.selectedCard.None?
      && r.0.(selectedCard := b.selectedCard) == b
  {
    if b.selectedCard.Some? then (b.(selectedCard := None), [Send(SocketService.PlayCard(b.gameId, cardIndex))])
    else (b, [])
  }

  /** `handleDrawCards`: one fire-and-forget message asking the server to draw for this board's
      game, whatever the board holds. */
  function HandleDrawCards(b: Board): (fx: seq<Effect>)
    ensures |fx| == 1 && fx[0].Send? && fx[0].call.IsNotification()
    ensures SocketService.RequestOf(fx[0].call)
         == SocketService.Message(SocketService.DrawCardsRequest, SocketService.GameId(b.gameId), false)
  {
    [Send(SocketService.DrawCards(b.gameId))]
  }

  /** A card of the hand is on screen, so it can be clicked. */
  predicate CardOffered(b: Board, i: nat) {
    b.gameState.Some? && i < |b.gameState.value.playerCards|
  }

  /** The "Play Selected Card" button is on screen. */
  predicate PlayOffered(b: Board) {
    b.gameState.Some? && b.selectedCard.Some?
  }

  /** The "Draw Cards" button is on screen. */
  predicate DrawOffered(b: Board) {
    b.gameState.Some? && b.gameState.value.canDraw
  }

  /** The face drawn in a played-card slot: the slot's card appears only when the board is
      rendered, results are showing and the slot holds a truthy card. */
  function Face(b: Board, mine: bool): (face: Option<Card>)
    ensures var slot := if mine then b.playedCards.player1 else b.playedCards.player2;
            && (face.Some? <==> !IsLoading(b) && b.showResults && Truthy(slot))
            && (face.Some? ==> face == slot)
  {
    var slot := if mine then b.playedCards.player1 else b.playedCards.player2;
    if !IsLoading(b) && Truthy(slot) && b.showResults then slot else None
  }

  /** A click on something the screen does not draw, or the firing of a timer that is not pending. */
  predicate Unavailable(b: Board, e: Event) {
    || (e.ClickCard? && !CardOffered(b, e.index))
    || (e.ClickPlay? && !PlayOffered(b))
    || (e.ClickDraw? && !DrawOffered(b))
    || (e.TimerFires? && e.index >= |b.timers|)
  }

  /** One event. A click on something that is not on screen cannot happen and changes nothing;
      so does firing a timer that is not pending. */
  function Step(b: Board, e: Event): (r: (Board, seq<Effect>))
    ensures r.0.gameId == b.gameId && r.0.userId == b.userId
    ensures r.1 != [] ==> e.TimerFires? || e.ClickPlay? || e.ClickDraw?
    ensures Unavailable(b, e) ==> r == (b, [])
    ensures e.ClickCard? && CardOffered(b, e.index) ==> r.0.selectedCard == Some(e.index) && r.0.(selectedCard := b.selectedCard) == b
    ensures e.ClickDraw? ==> r.0 == b
  {
    match e
    case GameUpdate(state) => (HandleGameUpdate(b, state), [])
    case CardPlayed(playerId, card) => (HandleCardPlayed(b, playerId, card), [])
    case RoundComplete => (HandleRoundComplete(b), [])
    case GameOver => (HandleGameOver(b), [])
    case TimerFires(i) => if i < |b.timers| then FireTimer(b, i) else (b, [])
    case ClickCard(i) => if CardOffered(b, i) then (b.(selectedCard := Some(i)), []) else (b, [])
    case ClickPlay => if PlayOffered(b) then HandlePlayCard(b, b.selectedCard.value) else (b, [])
    case ClickDraw => if DrawOffered(b) then (b, HandleDrawCards(b)) else (b, [])
  }

  /** A sequence of events, in order, with every effect they produce. */
  function Run(b: Board, events: seq<Event>): (r: (Board, seq<Effect>))
    decreases |events|
  {
    if events == [] then (b, [])
    else
      var (b1, fx1) := Run(b, events[..|events| - 1]);
      var (b2, fx2) := Step(b1, events[|events| - 1]);
      (b2, fx1 + fx2)
  }
}

=== FILE: game_proofs.dfy ===
/** Properties of the game board over single events and over whole event sequences. */
module GamePageProofs {
  import opened Common
  import opened Protocol
  import SocketService
  import opened Screen
  import opened GamePage
  import opened SocketServiceProofs

  lemma RunAppendOne(b: Board, events: seq<Event>, e: Event)
    ensures Run(b, events + [e]).0 == Step(Run(b, events).0, e).0
    ensures Run(b, events + [e]).1 == Run(b, events).1 + Step(Run(b, events).0, e).1
  {
    assert (events + [e])[..|events|] == events;
  }

  /** An effect the board may produce: a play or a draw for its own game, or the exit to the lobby. */
  predicate OwnEffect(gameId: string, f: Effect) {
    match f
    case Send(c) => (c.PlayCard? && c.gameId == gameId) || (c.DrawCards? && c.gameId == gameId)
    case Authenticate(_) => false
    case Navigate(path) => path == LobbyPath
  }

  lemma StepEffectsAreOwn(b: Board, e: Event)
    ensures forall k :: 0 <= k < |Step(b, e).1| ==> OwnEffect(b.gameId, Step(b, e).1[k])
  {
  }

  /** Whatever happens, the board only ever plays or draws in its own game and only ever
      navigates to the lobby. */
  lemma {:induction false} EffectsAreOwn(b: Board, events: seq<Event>)
    ensures Run(b, events).0.gameId == b.gameId
    ensures forall k :: 0 <= k < |Run(b, events).1| ==> OwnEffect(b.gameId, Run(b, events).1[k])
    decreases |events|
  {
    if events != [] {
      var prefix := events[..|events| - 1];
      var last := events[|events| - 1];
      assert events == prefix + [last];
      EffectsAreOwn(b, prefix);
      RunAppendOne(b, prefix, last);
      StepEffectsAreOwn(Run(b, prefix).0, last);
    }
  }

  lemma NoNavigationIn(fx: seq<Effect>)
    requires forall k :: 0 <= k < |fx| ==> !fx[k].Navigate?
    ensures Navigations(fx) == 0
  {
  }

  lemma FireCountsExits(b: Board, i: nat)
    requires i < |b.timers|
    ensures Count(FireTimer(b, i).0.timers, ExitToLobby) + Navigations(FireTimer(b, i).1)
            == Count(b.timers, ExitToLobby)
  {
    var (r, fx) := FireTimer(b, i);
    FireTimerRemovesOne(b, i);
    if b.timers[i] == ExitToLobby {
      assert fx == [Navigate(LobbyPath)];
      assert fx[1..] == [];
      assert Navigations(fx) == 1;
    } else {
      assert fx == [];
    }
  }

  lemma StepCountsExits(b: Board, e: Event)
    ensures Count(Step(b, e).0.timers, ExitToLobby) + Navigations(Step(b, e).1)
            == Count(b.timers, ExitToLobby) + (if e.GameOver? then 1 else 0)
  {
    if e.TimerFires? && e.index < |b.timers| {
      FireCountsExits(b, e.index);
    } else if e.RoundComplete? {
      var r := HandleRoundComplete(b);
      assert multiset(r.timers) == multiset(b.timers) + multiset{ClearReveal};
    } else if e.GameOver? {
    } else {
      assert Step(b, e).0.timers == b.timers;
      NoNavigationIn(Step(b, e).1);
    }
  }

  /** Each `gameOver` schedules one exit and each exit that fires navigates once: the exits
      still pending plus the navigations made always equal the exits pending at the start plus
      the `gameOver` events received. */
  lemma {:induction false} ExitsMatchGameOvers(b: Board, events: seq<Event>)
    ensures Count(Run(b, events).0.timers, ExitToLobby) + Navigations(Run(b, events).1)
            == Count(b.timers, ExitToLobby) + Count(events, GameOver)
    decreases |events|
  {
    if events != [] {
      var prefix := events[..|events| - 1];
      var last := events[|events| - 1];
      assert events == prefix + [last];
      assert multiset(events) == multiset(prefix) + multiset{last};
      ExitsMatchGameOvers(b, prefix);
      RunAppendOne(b, prefix, last);
      StepCountsExits(Run(b, prefix).0, last);
      NavigationsAppend(Run(b, prefix).1, Step(Run(b, prefix).0, last).1);
    }
  }

  /** From a freshly mounted board, the screen navigates at most once per `gameOver`. */
  lemma NavigationsBoundedByGameOvers(gameId: string, userId: string, events: seq<Event>)
    ensures Navigations(Run(Mount(gameId, userId), events).1) <= Count(events, GameOver)
  {
    ExitsMatchGameOvers(Mount(gameId, userId), events);
  }

  /** While results are showing, a reveal clear is pending, so the faces are never left on screen. */
  predicate RevealPending(b: Board) {
    b.showResults ==> ClearReveal in b.timers
  }

  lemma StepKeepsRevealPending(b: Board, e: Event)
    requires RevealPending(b)
    ensures RevealPending(Step(b, e).0)
  {
    var r := Step(b, e).0;
    match e
    case TimerFires(i) =>
      if i < |b.timers| && b.timers[i] == ExitToLobby && b.showResults {
        FireTimerRemovesOne(b, i);
        assert multiset(b.timers)[ClearReveal] > 0;
        assert multiset(r.timers) == multiset(b.timers) - multiset{ExitToLobby};
        assert multiset(r.timers)[ClearReveal] > 0;
      }
    case RoundComplete =>
      assert r.timers[|b.timers|] == ClearReveal;
    case _ =>
  }

  lemma {:induction false} RevealAlwaysPending(b: Board, events: seq<Event>)
    requires RevealPending(b)
    ensures RevealPending(Run(b, events).0)
    decreases |events|
  {
    if events != [] {
      var prefix := events[..|events| - 1];
      var last := events[|events| - 1];
      assert events == prefix + [last];
      RevealAlwaysPending(b, prefix);
      RunAppendOne(b, prefix, last);
      StepKeepsRevealPending(Run(b, prefix).0, last);
    }
  }

  /** Until the first `gameUpdate` the screen stays on "Loading game..." and sends nothing. */
  lemma {:induction false} LoadingUntilFirstUpdate(b: Board, events: seq<Event>)
    requires IsLoading(b)
    requires forall k :: 0 <= k < |events| ==> !events[k].GameUpdate?
    ensures IsLoading(Run(b, events).0)
    ensures forall k :: 0 <= k < |Run(b, events).1| ==> !Run(b, events).1[k].Send?
    decreases |events|
  {
    if events != [] {
      var prefix := events[..|events| - 1];
      var last := events[|events| - 1];
      assert events == prefix + [last];
      LoadingUntilFirstUpdate(b, prefix);
      RunAppendOne(b, prefix, last);
    }
  }

  /** A `gameUpdate` replaces the game state whatever it was, so replaying it changes nothing. */
  lemma GameUpdateIsIdempotent(b: Board, state: Snapshot)
    ensures Step(Step(b, GameUpdate(state)).0, GameUpdate(state)) == Step(b, GameUpdate(state))
    ensures forall prior :: Step(b.(gameState := prior), GameUpdate(state)) == Step(b, GameUpdate(state))
  {
  }

  /** A later card from the same player overwrites the earlier one. */
  lemma LaterCardOverwrites(b: Board, playerId: string, first: Card, second: Card)
    ensures Step(Step(b, CardPlayed(playerId, first)).0, CardPlayed(playerId, second)).0
            == Step(b, CardPlayed(playerId, second)).0
  {
  }

  /** `roundComplete` shows results; when its timer fires both slots empty and results hide. */
  lemma RevealThenClear(b: Board)
    ensures var shown := Step(b, RoundComplete).0;
            && shown.showResults
            && shown.playedCards == b.playedCards
            && var cleared := Step(shown, TimerFires(|b.timers|));
               && cleared.0.playedCards == NoCards
               && !cleared.0.showResults
               && cleared.0.timers == b.timers
               && cleared.1 == []
  {
    var shown := Step(b, RoundComplete).0;
    assert shown.timers[..|b.timers|] == b.timers;
  }

  /** Clicking a card of the hand selects exactly that index; a card that is not on screen
      cannot be clicked and changes nothing. */
  lemma SelectCard(b: Board, i: nat)
    ensures CardOffered(b, i) ==> Step(b, ClickCard(i)) == (b.(selectedCard := Some(i)), [])
    ensures !CardOffered(b, i) ==> Step(b, ClickCard(i)) == (b, [])
  {
  }

  /** A selection exists only on a loaded board, and it names a card the user clicked. */
  predicate SelectionClicked(b: Board, events: seq<Event>) {
    b.selectedCard.Some? ==> !IsLoading(b) && ClickCard(b.selectedCard.value) in events
  }

  /** Every card the board plays is one the user clicked. */
  predicate PlaysClicked(fx: seq<Effect>, events: seq<Event>) {
    forall k :: 0 <= k < |fx| && fx[k].Send? && fx[k].call.PlayCard? ==> ClickCard(fx[k].call.cardIndex) in events
  }

  lemma StepKeepsSelectionClicked(b: Board, prefix: seq<Event>, e: Event)
    requires SelectionClicked(b, prefix)
    ensures SelectionClicked(Step(b, e).0, prefix + [e])
    ensures PlaysClicked(Step(b, e).1, prefix + [e])
  {
    var events := prefix + [e];
    assert e in events;
    if b.selectedCard.Some? {
      assert ClickCard(b.selectedCard.value) in events;
    }
  }

  lemma PlaysClickedAppend(fx1: seq<Effect>, fx2: seq<Effect>, prefix: seq<Event>, e: Event)
    requires PlaysClicked(fx1, prefix) && PlaysClicked(fx2, prefix + [e])
    ensures PlaysClicked(fx1 + fx2, prefix + [e])
  {
    var fx := fx1 + fx2;
    forall k | 0 <= k < |fx| && fx[k].Send? && fx[k].call.PlayCard?
      ensures ClickCard(fx[k].call.cardIndex) in prefix + [e]
    {
      if k < |fx1| {
        assert fx[k] == fx1[k];
        assert ClickCard(fx1[k].call.cardIndex) in prefix;
      } else {
        assert fx[k] == fx2[k - |fx1|];
      }
    }
  }

  /** Starting with nothing selected, the selection and every card the board plays name a card
      the user clicked: the board never plays a card of its own accord. */
  lemma {:induction false} PlaysWereClicked(b: Board, events: seq<Event>)
    requires b.selectedCard.None?
    ensures SelectionClicked(Run(b, events).0, events)
    ensures PlaysClicked(Run(b, events).1, events)
    decreases |events|
  {
    if events != [] {
      var prefix := events[..|events| - 1];
      var last := events[|events| - 1];
      assert events == prefix + [last];
      PlaysWereClicked(b, prefix);
      RunAppendOne(b, prefix, last);
      StepKeepsSelectionClicked(Run(b, prefix).0, prefix, last);
      PlaysClickedAppend(Run(b, prefix).1, Step(Run(b, prefix).0, last).1, prefix, last);
    }
  }

  /** A face is drawn only while a reveal clear is pending: no sequence of events leaves a
      played card showing for good. */
  lemma FacesAreCleared(gameId: string, userId: string, events: seq<Event>, mine: bool)
    ensures var b := Run(Mount(gameId, userId), events).0;
            Face(b, mine).Some? ==> ClearReveal in b.timers
  {
    RevealAlwaysPending(Mount(gameId, userId), events);
  }

  /** Playing needs a selection: with none nothing is sent; with one, exactly one `playCard`
      of the selected index goes out and the selection is cleared. */
  lemma PlayNeedsSelection(b: Board)
    ensures b.selectedCard.None? ==> Step(b, ClickPlay) == (b, [])
    ensures PlayOffered(b) ==>
      Step(b, ClickPlay) == (b.(selectedCard := None), [Send(SocketService.PlayCard(b.gameId, b.selectedCard.value))])
  {
  }

  /** The draw action exists only while the snapshot allows drawing, and it sends `drawCards`. */
  lemma DrawOnlyWhenAllowed(b: Board)
    ensures Step(b, ClickDraw).0 == b
    ensures Step(b, ClickDraw).1
            == if DrawOffered(b) then [Send(SocketService.DrawCards(b.gameId))] else []
  {
  }

  /** Two cards, then `roundComplete`, then its timer: both faces show, then both slots empty. */
  lemma RevealScenario(state: Snapshot)
    ensures var b := Run(Mount("g1", "u1"), [GameUpdate(state), CardPlayed("u2", "Rock"), CardPlayed("u1", "Paper"), RoundComplete]).0;
            && b.showResults
            && Face(b, true) == Some("Paper") && Face(b, false) == Some("Rock")
            && var after := Step(b, TimerFires(0)).0;
               after.playedCards == NoCards && !after.showResults
  {
    var m := Mount("g1", "u1");
    var e1 := [GameUpdate(state)];
    var e2 := e1 + [CardPlayed("u2", "Rock")];
    var e3 := e2 + [CardPlayed("u1", "Paper")];
    var e4 := e3 + [RoundComplete];
    assert e4 == [GameUpdate(state), CardPlayed("u2", "Rock"), CardPlayed("u1", "Paper"), RoundComplete];
    assert [] + [GameUpdate(state)] == e1;
    RunAppendOne(m, [], GameUpdate(state));
    assert Run(m, e1).0.timers == [];
    RunAppendOne(m, e1, CardPlayed("u2", "Rock"));
    RunAppendOne(m, e2, CardPlayed("u1", "Paper"));
    var b3 := Run(m, e3).0;
    assert b3.timers == [] && b3.userId == "u1";
    assert b3.playedCards.player1 == Some("Paper") && b3.playedCards.player2 == Some("Rock");
    RunAppendOne(m, e3, RoundComplete);
    assert Run(m, e4).0.timers == [ClearReveal];
  }

  /** `gameOver` delivered twice navigates to the lobby twice: nothing deduplicates the exits. */
  lemma RepeatedGameOverNavigatesTwice(b: Board)
    requires b.timers == []
    ensures var fx := Run(b, [GameOver, GameOver, TimerFires(0), TimerFires(0)]).1;
            fx == [Navigate(LobbyPath), Navigate(LobbyPath)]
  {
    var e1 := [GameOver];
    var e2 := e1 + [GameOver];
    var e3 := e2 + [TimerFires(0)];
    var e4 := e3 + [TimerFires(0)];
    assert e4 == [GameOver, GameOver, TimerFires(0), TimerFires(0)];
    assert [] + [GameOver] == e1;
    RunAppendOne(b, [], GameOver);
    GameOverStep(b);
    var b1 := Run(b, e1).0;
    assert b1.timers == [ExitToLobby] && Run(b, e1).1 == [];
    RunAppendOne(b, e1, GameOver);
    GameOverStep(b1);
    var b2 := Run(b, e2).0;
    assert b2.timers == [ExitToLobby, ExitToLobby] && Run(b, e2).1 == [];
    RunAppendOne(b, e2, TimerFires(0));
    FireFirstExit(b2);
    var b3 := Run(b, e3).0;
    assert b3.timers == [ExitToLobby] && Run(b, e3).1 == [Navigate(LobbyPath)];
    RunAppendOne(b, e3, TimerFires(0));
    FireFirstExit(b3);
  }

  lemma GameOverStep(b: Board)
    ensures Step(b, GameOver) == (b.(timers := b.timers + [ExitToLobby]), [])
  {
  }

  lemma FireFirstExit(b: Board)
    requires b.timers != [] && b.timers[0] == ExitToLobby
    ensures Step(b, TimerFires(0)) == (b.(timers := b.timers[1..]), [Navigate(LobbyPath)])
  {
    assert b.timers[..0] + b.timers[1..] == b.timers[1..];
  }

  /** A reveal clear still pending when the next round's first card arrives wipes that card:
      the timer is not superseded by later events. */
  lemma PendingClearWipesNextCard(b: Board)
    requires b.timers == [] && b.userId == "u1"
    ensures Run(b, [RoundComplete, CardPlayed("u2", "Rock"), TimerFires(0)]).0.playedCards == NoCards
  {
    var es := [RoundComplete, CardPlayed("u2", "Rock"), TimerFires(0)];
    RunAppendOne(b, [], RoundComplete);
    assert [RoundComplete] == [] + [RoundComplete];
    RunAppendOne(b, [RoundComplete], CardPlayed("u2", "Rock"));
    assert es[..2] == [RoundComplete] + [CardPlayed("u2", "Rock")];
    RunAppendOne(b, es[..2], TimerFires(0));
    assert es == es[..2] + [TimerFires(0)];
  }

  /** The four subscriptions the board makes on mount, on a socket that had none of them. */
  predicate SubscribedOnce(s: SocketService.Service) {
    && SocketService.Handlers(s, SocketService.Push(SocketService.GameUpdate)) == [SocketService.Client(UpdateTag)]
    && SocketService.Handlers(s, SocketService.Push(SocketService.CardPlayed)) == [SocketService.Client(CardTag)]
    && SocketService.Handlers(s, SocketService.Push(SocketService.RoundComplete)) == [SocketService.Client(RoundTag)]
    && SocketService.Handlers(s, SocketService.Push(SocketService.GameOver)) == [SocketService.Client(OverTag)]
  }

  predicate NoBoardHandlers(s: SocketService.Service) {
    && SocketService.Handlers(s, SocketService.Push(SocketService.GameUpdate)) == []
    && SocketService.Handlers(s, SocketService.Push(SocketService.CardPlayed)) == []
    && SocketService.Handlers(s, SocketService.Push(SocketService.RoundComplete)) == []
    && SocketService.Handlers(s, SocketService.Push(SocketService.GameOver)) == []
  }

  lemma OpenAndJoin(s: SocketService.Service, token: string, gameId: string)
    requires !SocketService.IsConnected(s)
    ensures var r := SocketService.Run(s, [SocketService.Init(token), SocketService.JoinGame(gameId)]);
            && r.0.socket.Some? && r.0.socket.value.options.token == token
            && r.0.sent == s.sent + [SocketService.Message(SocketService.JoinGameRequest, SocketService.GameId(gameId), false)]
            && NoBoardHandlers(r.0)
            && r.1 == [SocketService.Returned, SocketService.Returned]
  {
    RunTwo(s, SocketService.Init(token), SocketService.JoinGame(gameId));
    var s1 := SocketService.InitSocket(s, token);
    assert NoBoardHandlers(s1);
    assert SocketService.Invoke(s1, SocketService.JoinGame(gameId)).0.socket == s1.socket;
  }

  /** Each of the board's four categories gets exactly its own handler from the subscriptions. */
  lemma BoardSubscribers()
    ensures Subscribers(Subscriptions(), SocketService.GameUpdate) == [SocketService.Client(UpdateTag)]
    ensures Subscribers(Subscriptions(), SocketService.CardPlayed) == [SocketService.Client(CardTag)]
    ensures Subscribers(Subscriptions(), SocketService.RoundComplete) == [SocketService.Client(RoundTag)]
    ensures Subscribers(Subscriptions(), SocketService.GameOver) == [SocketService.Client(OverTag)]
  {
  }

  /** Mounting on a session that is not connected opens a socket with the stored token, sends
      one `joinGame` for this game and subscribes the four handlers, none of the calls failing. */
  lemma MountJoinsGame(s: SocketService.Service, token: string, gameId: string)
    requires !SocketService.IsConnected(s)
    ensures var r := SocketService.Run(s, MountCalls(token, gameId));
            && r.0.socket.Some? && r.0.socket.value.options.token == token
            && r.0.sent == s.sent + [SocketService.Message(SocketService.JoinGameRequest, SocketService.GameId(gameId), false)]
            && SubscribedOnce(r.0)
            && forall k :: 0 <= k < |r.1| ==> !SocketService.Failed(r.1[k])
  {
    var open := [SocketService.Init(token), SocketService.JoinGame(gameId)];
    OpenAndJoin(s, token, gameId);
    ThenSubscribe(s, open);
  }

  /** Whatever calls came first, the four subscriptions on an open socket that had none of the
      board's handlers register each once, send nothing and all return. */
  lemma ThenSubscribe(s: SocketService.Service, first: seq<SocketService.Call>)
    requires SocketService.Run(s, first).0.socket.Some? && NoBoardHandlers(SocketService.Run(s, first).0)
    ensures var before := SocketService.Run(s, first);
            var r := SocketService.Run(s, first + Subscriptions());
            && r.0.socket.Some? && r.0.socket.value.options == before.0.socket.value.options
            && r.0.sent == before.0.sent
            && SubscribedOnce(r.0)
            && |r.1| == |before.1| + 4 && r.1[..|before.1|] == before.1
            && forall k :: |before.1| <= k < |r.1| ==> r.1[k] == SocketService.Returned
  {
    var before := SocketService.Run(s, first);
    var subs := Subscriptions();
    RunAppend(s, first, subs);
    SubscriptionsRegister(before.0);
    var after := SocketService.Run(before.0, subs);
    AllReturnedAfter(before.1, after.1);
  }

  lemma AllReturnedAfter(a: seq<SocketService.Outcome>, b: seq<SocketService.Outcome>)
    requires forall k :: 0 <= k < |b| ==> b[k] == SocketService.Returned
    ensures (a + b)[..|a|] == a
    ensures forall k :: |a| <= k < |a + b| ==> (a + b)[k] == SocketService.Returned
  {
    assert forall k :: |a| <= k < |a + b| ==> (a + b)[k] == b[k - |a|];
  }

  /** The four subscriptions on an open socket without the board's handlers. */
  lemma SubscriptionsRegister(s: SocketService.Service)
    requires s.socket.Some? && NoBoardHandlers(s)
    ensures var r := SocketService.Run(s, Subscriptions());
            && r.0.socket.Some? && r.0.socket.value.options == s.socket.value.options
            && r.0.sent == s.sent
            && SubscribedOnce(r.0)
            && forall k :: 0 <= k < |r.1| ==> r.1[k] == SocketService.Returned
  {
    var subs := Subscriptions();
    RegistrationsReturn(s, subs);
    RegistrationsAppend(s, subs, SocketService.GameUpdate);
    RegistrationsAppend(s, subs, SocketService.CardPlayed);
    RegistrationsAppend(s, subs, SocketService.RoundComplete);
    RegistrationsAppend(s, subs, SocketService.GameOver);
    BoardSubscribers();
  }

  /** Leaving the board releases the shared socket without sending anything. */
  lemma UnmountReleasesSocket(s: SocketService.Service)
    ensures SocketService.Run(s, UnmountCalls()).0.socket.None?
    ensures SocketService.Run(s, UnmountCalls()).0.sent == s.sent
  {
    assert UnmountCalls()[1..] == [];
  }
}

=== FILE: lobby.dfy ===
/**
 The lobby screen (`Lobby`) and its create dialog (`CreateLobbyModal`): the list of open
 lobbies the server pushes, the join rule, the create dialog's form, and the private-code box.

 The dialog's own form state lives only while the dialog is mounted, so `createForm` is
 `Some(form)` exactly when `showCreate` is true, and a dialog opened again starts from the
 blank form.
 */
module LobbyPage {
  import opened Common
  import opened Protocol
  import SocketService
  import opened Screen

  /** A lobby with this many players or more is full. */
  const LobbyCapacity: nat := 2

  const FullLabel := "Full"
  const JoinLabel := "Join Game"

  /** The create dialog's `lobbyData`. */
  datatype LobbyForm = LobbyForm(name: string, isPrivate: bool)

  /** The form a freshly mounted dialog starts with. */
  const BlankForm := LobbyForm("", false)

  datatype Page = Page(lobbies: seq<LobbySummary>, createForm: Option<LobbyForm>, privateCode: string)

  datatype Event =
    | LobbyUpdate(lobbies: seq<LobbySummary>)
    | GameStart(gameId: string)
    | ClickCreate
    | EditName(name: string)
    | EditPrivate(checked: bool)
    | SubmitCreate
    | ClickCancel
    | CreateSettled(settlement: SocketService.Settlement)
    | ClickJoin(index: nat)
    | JoinSettled(settlement: SocketService.Settlement)
    | EditCode(code: string)
    | ClickJoinPrivate
    | JoinPrivateSettled(settlement: SocketService.Settlement)

  function Mount(): (p: Page)
    ensures p.lobbies == [] && !ShowCreate(p) && p.privateCode == ""
  {
    Page([], None, "")
  }

  const ListTag := "Lobby.onLobbyUpdate"
  const StartTag := "Lobby.onGameStart"

  /** The mount effect: `init`, then the two subscriptions. */
  function MountCalls(token: string): seq<SocketService.Call> {
    [SocketService.Init(token)] + Subscriptions()
  }

  function Subscriptions(): seq<SocketService.Call> {
    [SocketService.On(SocketService.LobbyUpdate, ListTag), SocketService.On(SocketService.GameStart, StartTag)]
  }

  /** The mount effect's cleanup. */
  function UnmountCalls(): seq<SocketService.Call> {
    [SocketService.Disconnect]
  }

  predicate ShowCreate(p: Page) {
    p.createForm.Some?
  }

  predicate IsFull(l: LobbySummary) {
    |l.players| >= LobbyCapacity
  }

  /** The caption of a lobby's join button. */
  function ButtonLabel(l: LobbySummary): (caption: string)
    ensures caption == FullLabel <==> IsFull(l)
    ensures caption == JoinLabel <==> !IsFull(l)
  {
    if IsFull(l) then FullLabel else JoinLabel
  }

  /** The i-th lobby's join button is on screen and enabled. */
  predicate JoinOffered(p: Page, i: nat) {
    i < |p.lobbies| && !IsFull(p.lobbies[i])
  }

  /** The `lobbyUpdate` handler: the pushed list replaces the shown one. */
  function HandleLobbyUpdate(p: Page, lobbies: seq<LobbySummary>): (r: Page)
    ensures r.lobbies == lobbies
    ensures r.(lobbies := p.lobbies) == p
  {
    p.(lobbies := lobbies)
  }

  /** The `gameStart` handler: go to the board of the started game. */
  function HandleGameStart(gameId: string): (fx: seq<Effect>)
    ensures |fx| == 1 && fx[0].Navigate?
    ensures |fx[0].path| == |GamePathPrefix| + |gameId|
    ensures fx[0].path[..|GamePathPrefix|] == GamePathPrefix && fx[0].path[|GamePathPrefix|..] == gameId
  {
    [Navigate(GamePath(gameId))]
  }

  /** "Create Game": shows the dialog; a dialog already showing keeps its form. */
  function OpenCreate(p: Page): (r: Page)
    ensures ShowCreate(r)
    ensures !ShowCreate(p) ==> r.createForm == Some(BlankForm)
    ensures ShowCreate(p) ==> r == p
    ensures r.(createForm := p.createForm) == p
  {
    if ShowCreate(p) then p else p.(createForm := Some(BlankForm))
  }

  /** The dialog's `handleSubmit`: hands the current form, unchanged, to `handleCreateLobby`,
      which asks the session for a lobby with that name and privacy. */
  function HandleSubmit(form: LobbyForm): (fx: seq<Effect>)
    ensures |fx| == 1 && fx[0].Send? && fx[0].call.CreateLobby?
    ensures fx[0].call.name == form.name && fx[0].call.isPrivate == Some(form.isPrivate)
  {
    [Send(SocketService.CreateLobby(form.name, Some(form.isPrivate)))]
  }

  /** `handleCreateLobby` after its `await`: success hides the dialog; a rejection is only logged. */
  function CreateDone(p: Page, st: SocketService.Settlement): (r: Page)
    ensures st.Resolved? ==> !ShowCreate(r) && r.(createForm := p.createForm) == p
    ensures st.Rejected? ==> r == p
  {
    if st.Resolved? then p.(createForm := None) else p
  }

  /** `handleJoinPrivate` after its `await`: success empties the code box; a rejection is only logged. */
  function JoinPrivateDone(p: Page, st: SocketService.Settlement): (r: Page)
    ensures st.Resolved? ==> r.privateCode == "" && r.(privateCode := p.privateCode) == p
    ensures st.Rejected? ==> r == p
  {
    if st.Resolved? then p.(privateCode := "") else p
  }

  /** One event. Edits and submits of a dialog that is not showing, and clicks on a join button
      that is not enabled, cannot happen and change nothing. */
  function Step(p: Page, e: Event): (r: (Page, seq<Effect>))
    ensures !e.GameStart? && !e.SubmitCreate? && !e.ClickJoin? && !e.ClickJoinPrivate? ==> r.1 == []
    ensures !e.LobbyUpdate? ==> r.0.lobbies == p.lobbies
  {
    match e
    case LobbyUpdate(lobbies) => (HandleLobbyUpdate(p, lobbies), [])
    case GameStart(gameId) => (p, HandleGameStart(gameId))
    case ClickCreate => (OpenCreate(p), [])
    case EditName(name) =>
      if ShowCreate(p) then (p.(createForm := Some(p.createForm.value.(name := name))), []) else (p, [])
    case EditPrivate(checked) =>
      if ShowCreate(p) then (p.(createForm := Some(p.createForm.value.(isPrivate := checked))), []) else (p, [])
    case SubmitCreate => if ShowCreate(p) then (p, HandleSubmit(p.createForm.value)) else (p, [])
    case ClickCancel => (p.(createForm := None), [])
    case CreateSettled(st) => (CreateDone(p, st), [])
    case ClickJoin(i) =>
      if JoinOffered(p, i) then (p, [Send(SocketService.JoinLobby(p.lobbies[i].id))]) else (p, [])
    case JoinSettled(_) => (p, [])
    case EditCode(code) => (p.(privateCode := code), [])
    case ClickJoinPrivate => (p, [Send(SocketService.JoinPrivateLobby(p.privateCode))])
    case JoinPrivateSettled(st) => (JoinPrivateDone(p, st), [])
  }

  /** A sequence of events, in order, with every effect they produce. */
  function Run(p: Page, events: seq<Event>): (r: (Page, seq<Effect>))
    decreases |events|
  {
    if events == [] then (p, [])
    else
      var (p1, fx1) := Run(p, events[..|events| - 1]);
      var (p2, fx2) := Step(p1, events[|events| - 1]);
      (p2, fx1 + fx2)
  }
}

=== FILE: lobby_proofs.dfy ===
/** Properties of the lobby screen over whole event sequences, and of its calls on the session. */
module LobbyPageProofs {
  import opened Common
  import opened Protocol
  import SocketService
  import opened Screen
  import opened LobbyPage
  import opened SocketServiceProofs

  lemma RunAppendOne(p: Page, events: seq<Event>, e: Event)
    ensures Run(p, events + [e]).0 == Step(Run(p, events).0, e).0
    ensures Run(p, events + [e]).1 == Run(p, events).1 + Step(Run(p, events).0, e).1
  {
    assert (events + [e])[..|events|] == events;
  }

  /** The list the server pushed last, or `initial` when it has pushed none. */
  function LastPushed(initial: seq<LobbySummary>, events: seq<Event>): seq<LobbySummary>
    decreases |events|
  {
    if events == [] then initial
    else if events[|events| - 1].LobbyUpdate? then events[|events| - 1].lobbies
    else LastPushed(initial, events[..|events| - 1])
  }

  /** The shown list is always the last one pushed: updates replace, they never accumulate,
      and nothing else touches the list. */
  lemma {:induction false} ListIsLastPushed(p: Page, events: seq<Event>)
    ensures Run(p, events).0.lobbies == LastPushed(p.lobbies, events)
    decreases |events|
  {
    if events != [] {
      var init := events[..|events| - 1];
      ListIsLastPushed(p, init);
      assert events == init + [events[|events| - 1]];
      RunAppendOne(p, init, events[|events| - 1]);
    }
  }

  lemma UpdateReplacesList(p: Page, first: seq<LobbySummary>, second: seq<LobbySummary>)
    ensures HandleLobbyUpdate(HandleLobbyUpdate(p, first), second) == HandleLobbyUpdate(p, second)
  {
  }

  /** A lobby's button is enabled, and reads "Join Game", exactly when fewer than two players are in it. */
  lemma JoinRule(p: Page, i: nat)
    requires i < |p.lobbies|
    ensures JoinOffered(p, i) <==> |p.lobbies[i].players| < 2
    ensures ButtonLabel(p.lobbies[i]) == "Full" <==> |p.lobbies[i].players| >= 2
    ensures ButtonLabel(p.lobbies[i]) == "Join Game" <==> JoinOffered(p, i)
  {
  }

  /** An enabled join button asks for exactly that lobby; a disabled one sends nothing. */
  lemma JoinSendsLobbyId(p: Page, i: nat)
    ensures JoinOffered(p, i) ==> Step(p, ClickJoin(i)) == (p, [Send(SocketService.JoinLobby(p.lobbies[i].id))])
    ensures !JoinOffered(p, i) ==> Step(p, ClickJoin(i)) == (p, [])
  {
  }

  /** `gameStart` goes to the board of the game named in its payload and changes nothing else. */
  lemma GameStartNavigates(p: Page, gameId: string)
    ensures Step(p, GameStart(gameId)) == (p, [Navigate("/game/" + gameId)])
  {
  }

  /** The boards the `gameStart` pushes in a sequence lead to, in order. */
  function StartedBoards(events: seq<Event>): seq<string>
    decreases |events|
  {
    if events == [] then []
    else
      var last := events[|events| - 1];
      StartedBoards(events[..|events| - 1]) + (if last.GameStart? then [GamePath(last.gameId)] else [])
  }

  /** Only `gameStart` navigates, to that game's board. */
  lemma StepDestinations(p: Page, e: Event)
    ensures Destinations(Step(p, e).1) == if e.GameStart? then [GamePath(e.gameId)] else []
  {
    var fx := Step(p, e).1;
    if e.GameStart? {
      assert fx == [Navigate(GamePath(e.gameId))];
      assert fx[1..] == [];
    } else {
      assert forall k :: 0 <= k < |fx| ==> !fx[k].Navigate?;
      assert Navigations(fx) == 0;
    }
  }

  /** The lobby leaves only for a started game: over any sequence it navigates exactly once
      per `gameStart`, in order, each time to that game's board. */
  lemma {:induction false} NavigationsAreGameStarts(p: Page, events: seq<Event>)
    ensures Destinations(Run(p, events).1) == StartedBoards(events)
    decreases |events|
  {
    if events != [] {
      var init := events[..|events| - 1];
      var last := events[|events| - 1];
      NavigationsAreGameStarts(p, init);
      assert events == init + [last];
      RunAppendOne(p, init, last);
      DestinationsAppend(Run(p, init).1, Step(Run(p, init).0, last).1);
      StepDestinations(Run(p, init).0, last);
    }
  }

  /** The dialog closes on a successful create and on cancel; a rejected create leaves the whole
      page as it was. */
  lemma CreateClosesOnlyOnSuccess(p: Page, st: SocketService.Settlement)
    ensures var r := Step(p, CreateSettled(st));
            && r.1 == []
            && (ShowCreate(r.0) <==> ShowCreate(p) && st.Rejected?)
            && (st.Rejected? ==> r.0 == p)
            && r.0.lobbies == p.lobbies && r.0.privateCode == p.privateCode
  {
  }

  /** The code box is emptied by a successful private join and only by that (or an edit). */
  lemma PrivateCodeClearedOnlyOnSuccess(p: Page, st: SocketService.Settlement)
    requires p.privateCode != ""
    ensures var r := Step(p, JoinPrivateSettled(st));
            && r.1 == []
            && (r.0.privateCode == "" <==> st.Resolved?)
            && (st.Rejected? ==> r.0 == p)
            && r.0.lobbies == p.lobbies && r.0.createForm == p.createForm
  {
  }

  /** A private join sends the code in the box at the time of the click. */
  lemma JoinPrivateSendsCode(p: Page)
    ensures Step(p, ClickJoinPrivate) == (p, [Send(SocketService.JoinPrivateLobby(p.privateCode))])
  {
  }

  /** A dialog opened afresh starts from `{name: '', isPrivate: false}`, even after an earlier
      dialog was edited and cancelled. */
  lemma ReopenedDialogIsBlank(p: Page, name: string, checked: bool)
    ensures var es := [ClickCreate, EditName(name), EditPrivate(checked), ClickCancel, ClickCreate];
            Run(p.(createForm := None), es).0.createForm == Some(LobbyForm("", false))
  {
    var q := p.(createForm := None);
    var es := [ClickCreate, EditName(name), EditPrivate(checked), ClickCancel, ClickCreate];
    RunAppendOne(q, [], es[0]);
    assert es[..1] == [] + [es[0]];
    RunAppendOne(q, es[..1], es[1]);
    assert es[..2] == es[..1] + [es[1]];
    RunAppendOne(q, es[..2], es[2]);
    assert es[..3] == es[..2] + [es[2]];
    RunAppendOne(q, es[..3], es[3]);
    assert es[..4] == es[..3] + [es[3]];
    RunAppendOne(q, es[..4], es[4]);
    assert es == es[..4] + [es[4]];
  }

  /** Submitting the dialog sends the form exactly as typed and leaves the dialog open until
      the session answers. */
  lemma SubmitPassesForm(p: Page, name: string, checked: bool)
    requires !ShowCreate(p)
    ensures var r := Run(p, [ClickCreate, EditName(name), EditPrivate(checked), SubmitCreate]);
            && r.1 == [Send(SocketService.CreateLobby(name, Some(checked)))]
            && r.0.createForm == Some(LobbyForm(name, checked))
  {
    var es := [ClickCreate, EditName(name), EditPrivate(checked), SubmitCreate];
    RunAppendOne(p, [], es[0]);
    assert es[..1] == [] + [es[0]];
    RunAppendOne(p, es[..1], es[1]);
    assert es[..2] == es[..1] + [es[1]];
    RunAppendOne(p, es[..2], es[2]);
    assert es[..3] == es[..2] + [es[2]];
    RunAppendOne(p, es[..3], es[3]);
    assert es == es[..3] + [es[3]];
  }

  /** The create request the dialog sends reaches the session as one acknowledged `createLobby`
      carrying the name and the privacy flag. */
  lemma SubmitReachesServer(s: SocketService.Service, form: LobbyForm)
    requires s.socket.Some?
    ensures var r := SocketService.Invoke(s, HandleSubmit(form)[0].call);
            && r.0.sent == s.sent + [SocketService.Message(SocketService.CreateLobbyRequest, SocketService.NewLobby(form.name, form.isPrivate), true)]
            && r.1.Pending?
  {
  }

  /** A one-lobby list with one player shows one open lobby whose button reads "Join Game". */
  lemma OneOpenLobby(p: Page, host: string)
    ensures var l := LobbySummary("lobby-1", "Ante Room", false, [host], Creator(host));
            var r := Step(p, LobbyUpdate([l])).0;
            |r.lobbies| == 1 && JoinOffered(r, 0) && ButtonLabel(r.lobbies[0]) == "Join Game"
  {
  }

  /** Mounting on a session that is not connected opens a socket with the token and subscribes
      the two handlers, none of the calls failing and nothing being sent. */
  lemma MountSubscribes(s: SocketService.Service, token: string)
    requires !SocketService.IsConnected(s)
    ensures var r := SocketService.Run(s, MountCalls(token));
            && r.0.socket.Some? && r.0.socket.value.options.token == token
            && r.0.sent == s.sent
            && SocketService.Handlers(r.0, SocketService.Push(SocketService.LobbyUpdate)) == [SocketService.Client(ListTag)]
            && SocketService.Handlers(r.0, SocketService.Push(SocketService.GameStart)) == [SocketService.Client(StartTag)]
            && r.1 == [SocketService.Returned, SocketService.Returned, SocketService.Returned]
  {
    MountRuns(s, token);
    MountedRegistry(s, token);
  }

  /** The session as the mount effect leaves it when `init` opened a new socket. */
  function Mounted(s: SocketService.Service, token: string): SocketService.Service {
    var s1 := SocketService.InitSocket(s, token);
    var s2 := SocketService.Register(s1, SocketService.LobbyUpdate, ListTag).0;
    SocketService.Register(s2, SocketService.GameStart, StartTag).0
  }

  lemma MountRuns(s: SocketService.Service, token: string)
    requires !SocketService.IsConnected(s)
    ensures SocketService.Run(s, MountCalls(token))
            == (Mounted(s, token), [SocketService.Returned, SocketService.Returned, SocketService.Returned])
  {
    var c := MountCalls(token);
    assert c == [c[0], c[1], c[2]];
    RunThree(s, c[0], c[1], c[2]);
    var s1 := SocketService.InitSocket(s, token);
    assert SocketService.Invoke(s, c[0]) == (s1, SocketService.Returned);
    var s2 := SocketService.Register(s1, SocketService.LobbyUpdate, ListTag).0;
    assert SocketService.Invoke(s1, c[1]) == (s2, SocketService.Returned);
    assert SocketService.Invoke(s2, c[2]) == (Mounted(s, token), SocketService.Returned);
  }

  lemma MountedRegistry(s: SocketService.Service, token: string)
    requires !SocketService.IsConnected(s)
    ensures var m := Mounted(s, token);
            && m.socket.Some? && m.socket.value.options.token == token
            && m.sent == s.sent
            && SocketService.Handlers(m, SocketService.Push(SocketService.LobbyUpdate)) == [SocketService.Client(ListTag)]
            && SocketService.Handlers(m, SocketService.Push(SocketService.GameStart)) == [SocketService.Client(StartTag)]
  {
    var s1 := SocketService.InitSocket(s, token);
    assert SocketService.Handlers(s1, SocketService.Push(SocketService.LobbyUpdate)) == [];
    assert SocketService.Handlers(s1, SocketService.Push(SocketService.GameStart)) == [];
  }

  /** Leaving the lobby screen releases the shared socket without sending anything. */
  lemma UnmountReleasesSocket(s: SocketService.Service)
    ensures SocketService.Run(s, UnmountCalls()).0.socket.None?
    ensures SocketService.Run(s, UnmountCalls()).0.sent == s.sent
  {
    RunCons(s, SocketService.Disconnect, []);
  }
}

=== FILE: login.dfy ===
/**
 The sign-in screen (`Login`): a login/register switch, a three-field form, an error banner,
 and the decision a submit or a guest sign-in makes. The authentication context is outside
 the model: the screen asks it for one `Authenticate` effect and later receives its
 `{success, error}` answer as an `AuthSettled` event.
 */
module LoginPage {
  import opened Screen

  const MismatchError := "Passwords do not match"

  datatype Form = Form(username: string, password: string, confirmPassword: string)

  const EmptyForm := Form("", "", "")

  datatype Page = Page(isLogin: bool, form: Form, error: string)

  /** The `{success, error}` object `login`, `register` and `loginAsGuest` resolve with. */
  datatype AuthResult = AuthResult(success: bool, error: string)

  datatype Event =
    | SelectLogin
    | SelectRegister
    | EditUsername(username: string)
    | EditPassword(password: string)
    | EditConfirm(confirmPassword: string)
    | SubmitForm
    | ClickGuest
    | AuthSettled(result: AuthResult)

  function Mount(): (p: Page)
    ensures p.isLogin && p.form == EmptyForm && !ErrorShown(p)
  {
    Page(true, EmptyForm, "")
  }

  /** The red banner is drawn when the error is a non-empty string. */
  predicate ErrorShown(p: Page) {
    p.error != ""
  }

  /** The form passes the only check the screen makes: in register mode the two passwords
      must be equal; in login mode there is nothing to check. */
  predicate PasswordsAgree(p: Page) {
    p.isLogin || p.form.password == p.form.confirmPassword
  }

  /** The request a submit makes of the authentication context in the current mode. */
  function Request(p: Page): (req: AuthRequest)
    ensures p.isLogin <==> req.Login?
    ensures !p.isLogin <==> req.Register?
    ensures req.username == p.form.username && req.password == p.form.password
  {
    if p.isLogin then Login(p.form.username, p.form.password) else Register(p.form.username, p.form.password)
  }

  /** `handleSubmit` up to its `await`: the old error is cleared first; a register form whose
      passwords differ stops with the mismatch error; otherwise one request goes out. */
  function HandleSubmit(p: Page): (r: (Page, seq<Effect>))
    ensures r.0.isLogin == p.isLogin && r.0.form == p.form
    ensures PasswordsAgree(p) ==> r.0.error == "" && r.1 == [Authenticate(Request(p))]
    ensures !PasswordsAgree(p) ==> r.0.error == MismatchError && r.1 == []
  {
    var cleared := p.(error := "");
    if !p.isLogin && p.form.password != p.form.confirmPassword then
      (cleared.(error := MismatchError), [])
    else
      (cleared, [Authenticate(Request(p))])
  }

  /** The rule both handlers apply after their `await`: success goes to the lobby and leaves
      the error untouched; failure shows the answer's error and stays. */
  function Conclude(p: Page, result: AuthResult): (r: (Page, seq<Effect>))
    ensures result.success ==> r == (p, [Navigate(LobbyPath)])
    ensures !result.success ==> r.1 == [] && r.0.error == result.error && r.0.(error := p.error) == p
  {
    if result.success then (p, [Navigate(LobbyPath)]) else (p.(error := result.error), [])
  }

  /** One event. The confirm field is on screen only in register mode. */
  function Step(p: Page, e: Event): (r: (Page, seq<Effect>))
    ensures !e.SubmitForm? && !e.ClickGuest? && !e.AuthSettled? ==> r.1 == []
    ensures !e.SubmitForm? && !e.AuthSettled? ==> r.0.error == p.error
  {
    match e
    case SelectLogin => (p.(isLogin := true), [])
    case SelectRegister => (p.(isLogin := false), [])
    case EditUsername(u) => (p.(form := p.form.(username := u)), [])
    case EditPassword(pw) => (p.(form := p.form.(password := pw)), [])
    case EditConfirm(c) => if p.isLogin then (p, []) else (p.(form := p.form.(confirmPassword := c)), [])
    case SubmitForm => HandleSubmit(p)
    case ClickGuest => (p, [Authenticate(Guest)])  // `handleGuestLogin` up to its `await`
    case AuthSettled(result) => Conclude(p, result)
  }

  /** A sequence of events, in order, with every effect they produce. */
  function Run(p: Page, events: seq<Event>): (r: (Page, seq<Effect>))
    decreases |events|
  {
    if events == [] then (p, [])
    else
      var (p1, fx1) := Run(p, events[..|events| - 1]);
      var (p2, fx2) := Step(p1, events[|events| - 1]);
      (p2, fx1 + fx2)
  }
}

=== FILE: login_proofs.dfy ===
/** Properties of the sign-in screen's submit decision and of its event sequences. */
module LoginPageProofs {
  import opened Screen
  import opened LoginPage

  lemma RunAppendOne(p: Page, events: seq<Event>, e: Event)
    ensures Run(p, events + [e]).0 == Step(Run(p, events).0, e).0
    ensures Run(p, events + [e]).1 == Run(p, events).1 + Step(Run(p, events).0, e).1
  {
    assert (events + [e])[..|events|] == events;
  }

  /** The mismatch error appears exactly for a register form whose passwords differ, and then
      neither `login` nor `register` is asked for. */
  lemma MismatchShortCircuits(p: Page)
    ensures var r := HandleSubmit(p);
            && (r.0.error == "Passwords do not match" <==> !p.isLogin && p.form.password != p.form.confirmPassword)
            && (r.1 == [] <==> !p.isLogin && p.form.password != p.form.confirmPassword)
  {
  }

  /** In login mode the confirm field, whatever it holds, plays no part. */
  lemma LoginIgnoresConfirm(p: Page, confirm: string)
    requires p.isLogin
    ensures var q := p.(form := p.form.(confirmPassword := confirm));
            HandleSubmit(q).1 == HandleSubmit(p).1 && HandleSubmit(q).0.error == HandleSubmit(p).0.error
  {
  }

  /** Submit clears the previous error before anything else: what it decides does not depend on it. */
  lemma SubmitIgnoresOldError(p: Page, previous: string)
    ensures HandleSubmit(p.(error := previous)) == HandleSubmit(p)
  {
  }

  /** A submit that passes the check asks exactly once, with the typed name and password, for
      `login` in login mode and for `register` in register mode. */
  lemma SubmitAsksOnce(p: Page)
    requires PasswordsAgree(p)
    ensures var fx := HandleSubmit(p).1;
            && |fx| == 1 && fx[0].Authenticate?
            && (p.isLogin ==> fx[0].request == Login(p.form.username, p.form.password))
            && (!p.isLogin ==> fx[0].request == Register(p.form.username, p.form.password))
  {
  }

  /** A sign-in, by the form or as a guest, ends on the lobby exactly when the answer is a
      success; a failure shows the answer's error instead. Only the form clears an old error. */
  lemma SignInOutcome(p: Page, first: Event, result: AuthResult)
    requires first == ClickGuest || (first == SubmitForm && PasswordsAgree(p))
    ensures var r := Run(p, [first, AuthSettled(result)]);
            var ask := Authenticate(if first == ClickGuest then Guest else Request(p));
            && (result.success ==> r.1 == [ask, Navigate("/lobby")])
            && (!result.success ==> r.1 == [ask] && r.0.error == result.error)
            && (Navigations(r.1) == 1 <==> result.success)
            && (result.success ==> r.0.error == (if first == ClickGuest then p.error else ""))
            && r.0.form == p.form && r.0.isLogin == p.isLogin
  {
    var es := [first, AuthSettled(result)];
    var ask := Authenticate(if first == ClickGuest then Guest else Request(p));
    var (p1, fx1) := Step(p, first);
    assert p1.form == p.form && p1.isLogin == p.isLogin && fx1 == [ask];
    assert p1.error == (if first == ClickGuest then p.error else "");
    assert es[..1] == [first] && [first][..0] == [] && [] + fx1 == fx1;
    assert Run(p, [first]) == (p1, fx1);
    var (p2, fx2) := Conclude(p1, result);
    assert Run(p, es) == (p2, fx1 + fx2);
    NavigationsAppend(fx1, fx2);
  }

  /** How many of the authentication answers in a sequence were successes. */
  function Successes(events: seq<Event>): nat
    decreases |events|
  {
    if events == [] then 0
    else Successes(events[..|events| - 1])
         + (var e := events[|events| - 1]; if e.AuthSettled? && e.result.success then 1 else 0)
  }

  /** Every navigation the screen makes answers one successful authentication, and every
      successful answer navigates: the screen never leaves on its own. */
  lemma {:induction false} NavigationsAreSuccesses(p: Page, events: seq<Event>)
    ensures Navigations(Run(p, events).1) == Successes(events)
    decreases |events|
  {
    if events != [] {
      var init := events[..|events| - 1];
      var e := events[|events| - 1];
      NavigationsAreSuccesses(p, init);
      assert events == init + [e];
      RunAppendOne(p, init, e);
      var q := Run(p, init).0;
      NavigationsAppend(Run(p, init).1, Step(q, e).1);
      match e
      case SubmitForm =>
        assert Navigations(Step(q, e).1) == 0;
      case ClickGuest =>
        assert Navigations(Step(q, e).1) == 0;
      case AuthSettled(result) =>
        if result.success {
          assert Navigations([Navigate(LobbyPath)]) == 1;
        }
      case _ =>
    }
  }

  /** Register with mismatched passwords, correct the confirmation, submit again and succeed:
      the first submit shows the mismatch, the second clears it and the screen goes to the lobby. */
  lemma RegisterAfterMismatch(u: string, pw: string, wrong: string)
    requires wrong != pw
    ensures var es := [SelectRegister, EditUsername(u), EditPassword(pw), EditConfirm(wrong), SubmitForm];
            Run(Mount(), es).0.error == "Passwords do not match" && Run(Mount(), es).1 == []
    ensures var es := [SelectRegister, EditUsername(u), EditPassword(pw), EditConfirm(wrong), SubmitForm,
                       EditConfirm(pw), SubmitForm, AuthSettled(AuthResult(true, ""))];
            Run(Mount(), es).1 == [Authenticate(Register(u, pw)), Navigate("/lobby")]
            && !ErrorShown(Run(Mount(), es).0)
  {
    var m := Mount();
    var es := [SelectRegister, EditUsername(u), EditPassword(pw), EditConfirm(wrong), SubmitForm,
               EditConfirm(pw), SubmitForm, AuthSettled(AuthResult(true, ""))];
    RunAppendOne(m, [], es[0]);
    assert es[..1] == [] + [es[0]];
    RunAppendOne(m, es[..1], es[1]);
    assert es[..2] == es[..1] + [es[1]];
    RunAppendOne(m, es[..2], es[2]);
    assert es[..3] == es[..2] + [es[2]];
    RunAppendOne(m, es[..3], es[3]);
    assert es[..4] == es[..3] + [es[3]];
    RunAppendOne(m, es[..4], es[4]);
    assert es[..5] == es[..4] + [es[4]];
    var p5 := Run(m, es[..5]).0;
    assert p5 == Page(false, Form(u, pw, wrong), MismatchError);
    assert es[..5] == [SelectRegister, EditUsername(u), EditPassword(pw), EditConfirm(wrong), SubmitForm];
    RunAppendOne(m, es[..5], es[5]);
    assert es[..6] == es[..5] + [es[5]];
    RunAppendOne(m, es[..6], es[6]);
    assert es[..7] == es[..6] + [es[6]];
    RunAppendOne(m, es[..7], es[7]);
    assert es == es[..7] + [es[7]];
  }
}

=== FILE: protocol.dfy ===
/** The records the game server sends to the client, as the client reads them. */
module Protocol {
  import opened Common

  /** A card as the server names it (for example "Rock"). */
  type Card = string

  datatype Creator = Creator(username: string)

  /** One entry of a `lobbyUpdate` snapshot; `players` holds the identities of the joined players. */
  datatype LobbySummary = LobbySummary(
    id: string,
    name: string,
    isPrivate: bool,
    players: seq<string>,
    creator: Creator)

  /** A `gameUpdate` payload: the whole board as the server sees it for this player. */
  datatype Snapshot = Snapshot(
    opponentCards: int,
    opponentDraws: int,
    canDraw: bool,
    drawsRemaining: int,
    playerCards: seq<Card>)

  /** The acknowledgment object the server passes back for `createLobby`, `joinLobby` and
      `joinPrivateLobby`: an optional `error` field and, on success, the lobby record. */
  datatype Response = Response(error: Option<string>, lobby: Option<LobbySummary>)
}

=== FILE: screen.dfy ===
/** What a screen asks of the world outside it: calls on the shared session client, calls on
    the authentication context, and navigation to another route. */
module Screen {
  import SocketService

  const LobbyPath := "/lobby"
  const GamePathPrefix := "/game/"

  /** The route of one game's board, `/game/<gameId>`. */
  function GamePath(gameId: string): (path: string)
    ensures |path| == |GamePathPrefix| + |gameId|
    ensures path[..|GamePathPrefix|] == GamePathPrefix && path[|GamePathPrefix|..] == gameId
  {
    GamePathPrefix + gameId
  }

  /** A call on the authentication context, which answers with `{success, error}`. */
  datatype AuthRequest = Login(username: string, password: string) | Register(username: string, password: string) | Guest

  datatype Effect =
    | Send(call: SocketService.Call)
    | Authenticate(request: AuthRequest)
    | Navigate(path: string)

  /** How many navigations a list of effects holds. */
  function Navigations(effects: seq<Effect>): (n: nat)
    ensures n <= |effects|
    ensures n == 0 <==> forall i :: 0 <= i < |effects| ==> !effects[i].Navigate?
    decreases |effects|
  {
    if effects == [] then 0
    else (if effects[0].Navigate? then 1 else 0) + Navigations(effects[1..])
  }

  lemma {:induction false} NavigationsAppend(a: seq<Effect>, b: seq<Effect>)
    ensures Navigations(a + b) == Navigations(a) + Navigations(b)
    decreases |a|
  {
    if a != [] {
      assert (a + b)[0] == a[0];
      assert (a + b)[1..] == a[1..] + b;
      NavigationsAppend(a[1..], b);
    } else {
      assert a + b == b;
    }
  }

  /** The routes a list of effects navigates to, in order. */
  function Destinations(effects: seq<Effect>): (paths: seq<string>)
    ensures |paths| == Navigations(effects)
    decreases |effects|
  {
    if effects == [] then []
    else (if effects[0].Navigate? then [effects[0].path] else []) + Destinations(effects[1..])
  }

  lemma {:induction false} DestinationsAppend(a: seq<Effect>, b: seq<Effect>)
    ensures Destinations(a + b) == Destinations(a) + Destinations(b)
    decreases |a|
  {
    if a != [] {
      assert (a + b)[0] == a[0];
      assert (a + b)[1..] == a[1..] + b;
      DestinationsAppend(a[1..], b);
    } else {
      assert a + b == b;
    }
  }
}

=== FILE: session.dfy ===
/**
 The shared realtime session client (`WebSocketService`).

 The service holds at most one socket handle. The socket itself belongs to socket.io, which is
 not part of this model: it is reduced to its options, a `connected` flag and its listener
 registry. Every message the service hands to a socket is appended to `sent`, so "nothing is
 sent" means `sent` is unchanged. Transport happenings (a connection succeeding, failing or
 dropping) arrive as `TransportEvent`s chosen by the environment.
 */
module SocketService {
  import opened Common
  import opened Protocol

  const MaxReconnectAttempts: nat := 5
  const ReconnectionDelayMs: nat := 1000
  const ReconnectionDelayMaxMs: nat := 5000

  const ConnectEvent := "connect"
  const ConnectErrorEvent := "connect_error"
  const DisconnectEvent := "disconnect"

  /** The events the service emits to the server, one per command or notification. */
  datatype Request =
    | CreateLobbyRequest | JoinLobbyRequest | JoinPrivateLobbyRequest | LeaveLobbyRequest
    | JoinGameRequest | PlayCardRequest | DrawCardsRequest
  {
    /** The event name on the wire. */
    function Name(): string {
      match this
      case CreateLobbyRequest => "createLobby"
      case JoinLobbyRequest => "joinLobby"
      case JoinPrivateLobbyRequest => "joinPrivateLobby"
      case LeaveLobbyRequest => "leaveLobby"
      case JoinGameRequest => "joinGame"
      case PlayCardRequest => "playCard"
      case DrawCardsRequest => "drawCards"
    }
  }

  /** The push categories a screen can subscribe to through the `on*` methods. */
  datatype Category = LobbyUpdate | GameStart | GameUpdate | CardPlayed | CardsDrawn | RoundComplete | GameOver
  {
    function Name(): string {
      match this
      case LobbyUpdate => "lobbyUpdate"
      case GameStart => "gameStart"
      case GameUpdate => "gameUpdate"
      case CardPlayed => "cardPlayed"
      case CardsDrawn => "cardsDrawn"
      case RoundComplete => "roundComplete"
      case GameOver => "gameOver"
    }
  }

  /** What a listener is registered under: one of the three connection events, a push category,
      or any other event name. Two topics are the same exactly when their names are. */
  datatype Topic = ConnectTopic | ConnectErrorTopic | DisconnectTopic | Push(category: Category) | Named(name: string)

  /** The event name a topic stands for. */
  function TopicName(t: Topic): string {
    match t
    case ConnectTopic => ConnectEvent
    case ConnectErrorTopic => ConnectErrorEvent
    case DisconnectTopic => DisconnectEvent
    case Push(c) => c.Name()
    case Named(n) => n
  }

  /** The names the service itself gives a meaning to. */
  predicate KnownName(n: string) {
    n in {ConnectEvent, ConnectErrorEvent, DisconnectEvent,
          LobbyUpdate.Name(), GameStart.Name(), GameUpdate.Name(), CardPlayed.Name(),
          CardsDrawn.Name(), RoundComplete.Name(), GameOver.Name()}
  }

  /** Only names the service gives no meaning to are `Named`. */
  predicate ValidTopic(t: Topic) {
    t.Named? ==> !KnownName(t.name)
  }

  /** The topic an event name addresses. */
  function TopicOf(name: string): (t: Topic)
    ensures TopicName(t) == name
    ensures ValidTopic(t)
  {
    if name == ConnectEvent then ConnectTopic
    else if name == ConnectErrorEvent then ConnectErrorTopic
    else if name == DisconnectEvent then DisconnectTopic
    else if name == LobbyUpdate.Name() then Push(LobbyUpdate)
    else if name == GameStart.Name() then Push(GameStart)
    else if name == GameUpdate.Name() then Push(GameUpdate)
    else if name == CardPlayed.Name() then Push(CardPlayed)
    else if name == CardsDrawn.Name() then Push(CardsDrawn)
    else if name == RoundComplete.Name() then Push(RoundComplete)
    else if name == GameOver.Name() then Push(GameOver)
    else Named(name)
  }

  /** Naming a topic and looking the name up again gives the same topic back, so a listener
      registered under a topic is found again by its event name. */
  lemma TopicRoundTrip(t: Topic)
    requires ValidTopic(t)
    ensures TopicOf(TopicName(t)) == t
  {
    if t.Push? {
      var n := t.category.Name();
      assert n[0] != 'c' || n[1] != 'o';
    }
  }

  /** A listener. The three base handlers are closures only the service can name; a screen's
      handlers are identified by a tag, standing in for JavaScript function identity. */
  datatype Callback = OnConnect | OnConnectError | OnDisconnect | Client(tag: string)

  datatype Options = Options(
    token: string,
    reconnection: bool,
    reconnectionDelay: nat,
    reconnectionDelayMax: nat,
    reconnectionAttempts: nat)

  datatype Socket = Socket(options: Options, connected: bool, listeners: map<Topic, seq<Callback>>)

  /** The argument an emit carries besides its event name. */
  datatype Payload =
    | NewLobby(name: string, isPrivate: bool)
    | LobbyId(lobbyId: string)
    | Code(code: string)
    | NoPayload
    | GameId(gameId: string)
    | CardChoice(gameId: string, cardIndex: nat)

  /** One `socket.emit`; `awaitsAck` is true when an acknowledgment callback was attached. */
  datatype Message = Message(kind: Request, payload: Payload, awaitsAck: bool)

  /** `socket` is the handle. `replaced` holds, oldest first, the sockets a later `init` put
      aside without closing them: they keep connecting, and their base handlers still act on
      the service. `created` counts the sockets the service has created, standing in for
      socket identity. */
  datatype Service = Service(
    socket: Option<Socket>,
    replaced: seq<Socket>,
    reconnectAttempts: nat,
    created: nat,
    sent: seq<Message>)

  /** The service's public methods, as calls a screen makes. */
  datatype Call =
    | Init(token: string)
    | CreateLobby(name: string, isPrivate: Option<bool>)
    | JoinLobby(lobbyId: string)
    | JoinPrivateLobby(code: string)
    | LeaveLobby
    | JoinGame(gameId: string)
    | PlayCard(gameId: string, cardIndex: nat)
    | DrawCards(gameId: string)
    | On(category: Category, tag: string)
    | Off(event: string, tag: string)
    | RemoveAllListeners(event: string)
    | Disconnect
  {
    /** The three methods that return a Promise settled by the server's acknowledgment. */
    predicate IsCommand() {
      CreateLobby? || JoinLobby? || JoinPrivateLobby?
    }

    /** The four fire-and-forget emits. */
    predicate IsNotification() {
      LeaveLobby? || JoinGame? || PlayCard? || DrawCards?
    }

    /** `on*`, `off` and `removeAllListeners`. */
    predicate IsRegistration() {
      On? || Off? || RemoveAllListeners?
    }
  }

  /** Why a Promise was rejected: the handle was null (a TypeError inside the Promise executor),
      or the server's acknowledgment carried a truthy `error`. */
  datatype Failure = NullSocket | ServerError(error: string)

  datatype Settlement = Resolved(response: Response) | Rejected(reason: Failure)

  /** What a call gives back to its caller at once. */
  datatype Outcome =
    | Returned
    | Threw
    | Pending(request: Message)
    | Settled(settlement: Settlement)

  /** The caller observes an error: a synchronous throw or an already-rejected Promise. */
  predicate Failed(o: Outcome) {
    o.Threw? || (o.Settled? && o.settlement.Rejected?)
  }

  datatype TransportEvent = Connected | ConnectFailed | Dropped(reason: string)

  /** The service as its constructor leaves it. */
  function New(): (s: Service)
    ensures s.socket.None? && s.replaced == [] && s.reconnectAttempts == 0 && s.created == 0 && s.sent == []
  {
    Service(None, [], 0, 0, [])
  }

  /** `this.socket?.connected` */
  predicate IsConnected(s: Service) {
    s.socket.Some? && s.socket.value.connected
  }

  function Listeners(sock: Socket, t: Topic): seq<Callback> {
    if t in sock.listeners then sock.listeners[t] else []
  }

  /** The listeners that would run, in order, for topic `t` on the current socket. */
  function Handlers(s: Service, t: Topic): seq<Callback> {
    if s.socket.Some? then Listeners(s.socket.value, t) else []
  }

  function AddListener(sock: Socket, t: Topic, cb: Callback): (r: Socket)
    ensures Listeners(r, t) == Listeners(sock, t) + [cb]
    ensures forall u :: u != t ==> Listeners(r, u) == Listeners(sock, u)
    ensures r.options == sock.options && r.connected == sock.connected
  {
    sock.(listeners := sock.listeners[t := Listeners(sock, t) + [cb]])
  }

  /** The emitter's removal of one listener: the first occurrence of `x` goes, the rest keep their order. */
  function RemoveFirst<T(==)>(xs: seq<T>, x: T): (r: seq<T>)
    ensures x !in xs ==> r == xs
    ensures x in xs ==> |r| == |xs| - 1
  {
    if |xs| == 0 then xs
    else if xs[0] == x then xs[1..]
    else [xs[0]] + RemoveFirst(xs[1..], x)
  }

  /** `RemoveFirst` takes away one occurrence of `x` and nothing else. */
  lemma {:induction false} RemoveFirstMultiset<T>(xs: seq<T>, x: T)
    ensures multiset(RemoveFirst(xs, x)) == multiset(xs) - multiset{x}
    decreases |xs|
  {
    if |xs| > 0 {
      assert xs == [xs[0]] + xs[1..];
      if xs[0] != x {
        RemoveFirstMultiset(xs[1..], x);
      }
    }
  }

  /** A fresh socket from `io(url, options)` with `setupBaseHandlers` applied. */
  function FreshSocket(token: string): Socket {
    var options := Options(token, true, ReconnectionDelayMs, ReconnectionDelayMaxMs, MaxReconnectAttempts);
    var sock := Socket(options, false, map[]);
    AddListener(AddListener(AddListener(sock, ConnectTopic, OnConnect), ConnectErrorTopic, OnConnectError),
                DisconnectTopic, OnDisconnect)
  }

  /** `init(token)`: a no-op while the current socket is connected; otherwise a new socket replaces
      the handle. A socket the handle held is not closed: it joins the replaced ones. */
  function InitSocket(s: Service, token: string): (r: Service)
    ensures IsConnected(s) ==> r == s
    ensures !IsConnected(s) ==>
      && r.socket.Some?
      && r.socket.value.options.token == token
      && r.socket.value.options.reconnection
      && r.socket.value.options.reconnectionAttempts == MaxReconnectAttempts
      && !r.socket.value.connected
      && r.created == s.created + 1
      && r.reconnectAttempts == s.reconnectAttempts
      && r.sent == s.sent
      && r.replaced == s.replaced + (if s.socket.Some? then [s.socket.value] else [])
    ensures !IsConnected(s) ==>
      && Handlers(r, ConnectTopic) == [OnConnect]
      && Handlers(r, ConnectErrorTopic) == [OnConnectError]
      && Handlers(r, DisconnectTopic) == [OnDisconnect]
      && forall t :: t != ConnectTopic && t != ConnectErrorTopic && t != DisconnectTopic ==> Handlers(r, t) == []
  {
    if IsConnected(s) then s
    else
      var aside := if s.socket.Some? then [s.socket.value] else [];
      s.(socket := Some(FreshSocket(token)), replaced := s.replaced + aside, created := s.created + 1)
  }

  /** A transport happening on one socket, run through that socket's listeners: a successful
      connect marks it connected and its base `connect` listener resets the counter; a failed
      one runs every `connect_error` listener (each base one adds one); a drop unmarks it and
      only logs. */
  function Report(sock: Socket, attempts: nat, e: TransportEvent): (r: (Socket, nat))
    ensures r.0.listeners == sock.listeners && r.0.options == sock.options
    ensures e.Connected? ==> r.0.connected && r.1 == (if OnConnect in Listeners(sock, ConnectTopic) then 0 else attempts)
    ensures e.ConnectFailed? ==> r.0 == sock && r.1 == attempts + Count(Listeners(sock, ConnectErrorTopic), OnConnectError)
    ensures e.Dropped? ==> !r.0.connected && r.1 == attempts
  {
    match e
    case Connected => (sock.(connected := true), if OnConnect in Listeners(sock, ConnectTopic) then 0 else attempts)
    case ConnectFailed => (sock, attempts + Count(Listeners(sock, ConnectErrorTopic), OnConnectError))
    case Dropped(_) => (sock.(connected := false), attempts)
  }

  /** A transport happening on the current socket. */
  function Deliver(s: Service, e: TransportEvent): (r: Service)
    ensures s.socket.None? ==> r == s
    ensures r.sent == s.sent && r.created == s.created && r.replaced == s.replaced
    ensures s.socket.Some? ==> r.socket.Some? && r.socket.value.listeners == s.socket.value.listeners
                               && r.socket.value.options == s.socket.value.options
    ensures s.socket.Some? && e.Connected? ==>
      && IsConnected(r)
      && r.reconnectAttempts == (if OnConnect in Handlers(s, ConnectTopic) then 0 else s.reconnectAttempts)
    ensures s.socket.Some? && e.ConnectFailed? ==>
      r.socket == s.socket &&
      r.reconnectAttempts == s.reconnectAttempts + Count(Handlers(s, ConnectErrorTopic), OnConnectError)
    ensures e.Dropped? ==> !IsConnected(r) && r.reconnectAttempts == s.reconnectAttempts
  {
    match s.socket
    case None => s
    case Some(sock) =>
      var (after, attempts) := Report(sock, s.reconnectAttempts, e);
      s.(socket := Some(after), reconnectAttempts := attempts)
  }

  /** A transport happening on the i-th replaced socket. Its base handlers are bound to the
      service, so its `connect` still resets the counter and its `connect_error` still adds to
      it, while the handle and whether it is connected stay as they were. */
  function DeliverReplaced(s: Service, i: nat, e: TransportEvent): (r: Service)
    requires i < |s.replaced|
    ensures r.socket == s.socket && r.sent == s.sent && r.created == s.created
    ensures |r.replaced| == |s.replaced|
    ensures forall j :: 0 <= j < |s.replaced| && j != i ==> r.replaced[j] == s.replaced[j]
    ensures r.replaced[i].listeners == s.replaced[i].listeners
    ensures e.Connected? ==>
      r.reconnectAttempts == (if OnConnect in Listeners(s.replaced[i], ConnectTopic) then 0 else s.reconnectAttempts)
    ensures e.ConnectFailed? ==>
      r.reconnectAttempts == s.reconnectAttempts + Count(Listeners(s.replaced[i], ConnectErrorTopic), OnConnectError)
    ensures e.Dropped? ==> r.reconnectAttempts == s.reconnectAttempts
  {
    var (after, attempts) := Report(s.replaced[i], s.reconnectAttempts, e);
    s.(replaced := s.replaced[i := after], reconnectAttempts := attempts)
  }

  /** The wire message of a command or notification: its event name and argument. */
  function RequestOf(c: Call): (m: Message)
    requires c.IsCommand() || c.IsNotification()
    ensures m.awaitsAck <==> c.IsCommand()
    ensures c.CreateLobby? ==> m.payload == NewLobby(c.name, if c.isPrivate.Some? then c.isPrivate.value else false)
    ensures c.JoinLobby? ==> m.payload == LobbyId(c.lobbyId)
    ensures c.JoinPrivateLobby? ==> m.payload == Code(c.code)
    ensures c.LeaveLobby? ==> m.payload == NoPayload
    ensures c.JoinGame? || c.DrawCards? ==> m.payload == GameId(c.gameId)
    ensures c.PlayCard? ==> m.payload == CardChoice(c.gameId, c.cardIndex)
  {
    match c
    case CreateLobby(name, isPrivate) => Message(CreateLobbyRequest, NewLobby(name, isPrivate.GetOr(false)), true)
    case JoinLobby(lobbyId) => Message(JoinLobbyRequest, LobbyId(lobbyId), true)
    case JoinPrivateLobby(code) => Message(JoinPrivateLobbyRequest, Code(code), true)
    case LeaveLobby => Message(LeaveLobbyRequest, NoPayload, false)
    case JoinGame(gameId) => Message(JoinGameRequest, GameId(gameId), false)
    case PlayCard(gameId, cardIndex) => Message(PlayCardRequest, CardChoice(gameId, cardIndex), false)
    case DrawCards(gameId) => Message(DrawCardsRequest, GameId(gameId), false)
  }

  /** The acknowledgment callback: a truthy `response.error` rejects with it, anything else
      resolves with the whole response. */
  function Settle(response: Response): (r: Settlement)
    ensures r.Resolved? <==> !Truthy(response.error)
    ensures r.Resolved? ==> r.response == response
    ensures r.Rejected? ==> r.reason == ServerError(response.error.value) && r.reason.error != ""
  {
    if Truthy(response.error) then Rejected(ServerError(response.error.value)) else Resolved(response)
  }

  /** `on<Category>(callback)` */
  function Register(s: Service, category: Category, tag: string): (r: (Service, Outcome))
    ensures s.socket.None? ==> r == (s, Threw)
    ensures s.socket.Some? ==>
      && r.1 == Returned
      && r.0.socket.Some?
      && Handlers(r.0, Push(category)) == Handlers(s, Push(category)) + [Client(tag)]
      && (forall t :: t != Push(category) ==> Handlers(r.0, t) == Handlers(s, t))
      && r.0.socket.value.connected == s.socket.value.connected
      && r.0.socket.value.options == s.socket.value.options
      && r.0.(socket := s.socket) == s
  {
    match s.socket
    case None => (s, Threw)
    case Some(sock) => (s.(socket := Some(AddListener(sock, Push(category), Client(tag)))), Returned)
  }

  /** `off(event, callback)`: only the first registration of that callback under that event's
      name goes. */
  function Unregister(s: Service, event: string, tag: string): (r: (Service, Outcome))
    ensures s.socket.None? ==> r == (s, Threw)
    ensures s.socket.Some? ==>
      && r.1 == Returned
      && r.0.socket.Some?
      && Handlers(r.0, TopicOf(event)) == RemoveFirst(Handlers(s, TopicOf(event)), Client(tag))
      && (forall t :: t != TopicOf(event) ==> Handlers(r.0, t) == Handlers(s, t))
      && r.0.socket.value.connected == s.socket.value.connected
      && r.0.socket.value.options == s.socket.value.options
      && r.0.(socket := s.socket) == s
  {
    match s.socket
    case None => (s, Threw)
    case Some(sock) =>
      var t := TopicOf(event);
      var remaining := RemoveFirst(Listeners(sock, t), Client(tag));
      (s.(socket := Some(sock.(listeners := sock.listeners[t := remaining]))), Returned)
  }

  /** `removeAllListeners(event)`: that event's listeners go, base handlers included. */
  function UnregisterAll(s: Service, event: string): (r: (Service, Outcome))
    ensures s.socket.None? ==> r == (s, Threw)
    ensures s.socket.Some? ==>
      && r.1 == Returned
      && r.0.socket.Some?
      && Handlers(r.0, TopicOf(event)) == []
      && (forall t :: t != TopicOf(event) ==> Handlers(r.0, t) == Handlers(s, t))
      && r.0.socket.value.connected == s.socket.value.connected
      && r.0.socket.value.options == s.socket.value.options
      && r.0.(socket := s.socket) == s
  {
    match s.socket
    case None => (s, Threw)
    case Some(sock) => (s.(socket := Some(sock.(listeners := sock.listeners - {TopicOf(event)}))), Returned)
  }

  /** `disconnect()`: closes a live socket and drops the handle; with no handle it does nothing.
      Sockets an earlier `init` replaced are not reached. */
  function ReleaseSocket(s: Service): (r: Service)
    ensures r.socket.None?
    ensures r.reconnectAttempts == s.reconnectAttempts && r.created == s.created && r.sent == s.sent
    ensures r.replaced == s.replaced
    ensures s.socket.None? ==> r == s
  {
    s.(socket := None)
  }

  /** A command or notification. On a null handle it fails without sending: a command's Promise
      executor throws, which rejects the Promise; a notification throws to its caller. */
  function Emit(s: Service, c: Call): (r: (Service, Outcome))
    requires c.IsCommand() || c.IsNotification()
    ensures s.socket.None? ==> r.0 == s && Failed(r.1)
    ensures s.socket.Some? ==>
      && r.0 == s.(sent := s.sent + [RequestOf(c)])
      && r.1 == (if c.IsCommand() then Pending(RequestOf(c)) else Returned)
  {
    if s.socket.None? then
      (s, if c.IsCommand() then Settled(Rejected(NullSocket)) else Threw)
    else
      var m := RequestOf(c);
      (s.(sent := s.sent + [m]), if c.IsCommand() then Pending(m) else Returned)
  }

  /** One call of a service method. */
  function Invoke(s: Service, c: Call): (r: (Service, Outcome))
    ensures !c.Init? ==> r.0.created == s.created && r.0.reconnectAttempts == s.reconnectAttempts && r.0.replaced == s.replaced
    ensures s.socket.None? && !c.Init? && !c.Disconnect? ==> r.0 == s && Failed(r.1)
    ensures (c.IsCommand() || c.IsNotification()) && s.socket.Some? ==>
      && r.0.socket == s.socket
      && r.0.sent == s.sent + [RequestOf(c)]
      && r.1 == (if c.IsCommand() then Pending(RequestOf(c)) else Returned)
    ensures !(c.IsCommand() || c.IsNotification()) ==> r.0.sent == s.sent && !r.1.Pending?
  {
    if c.IsCommand() || c.IsNotification() then Emit(s, c)
    else
      match c
      case Init(token) => (InitSocket(s, token), Returned)
      case On(category, tag) => Register(s, category, tag)
      case Off(event, tag) => Unregister(s, event, tag)
      case RemoveAllListeners(event) => UnregisterAll(s, event)
      case Disconnect => (ReleaseSocket(s), Returned)
  }

  /** A sequence of calls, in order, with the outcome of each. */
  function Run(s: Service, calls: seq<Call>): (r: (Service, seq<Outcome>))
    ensures |r.1| == |calls|
    decreases |calls|
  {
    if calls == [] then (s, [])
    else
      var (s1, o) := Invoke(s, calls[0]);
      var (s2, os) := Run(s1, calls[1..]);
      (s2, [o] + os)
  }
}

=== FILE: session_proofs.dfy ===
/** Properties of the session client across several calls and transport happenings. */
module SocketServiceProofs {
  import opened Common
  import opened SocketService

  /** Anything the environment can do to the service: a method call, a transport happening on
      the current socket, or one on a socket an earlier `init` replaced. */
  datatype Input =
    | Invoked(call: Call)
    | Transported(event: TransportEvent)
    | TransportedAside(index: nat, event: TransportEvent)

  /** A replaced socket that does not exist reports nothing. */
  function Apply(s: Service, i: Input): Service {
    match i
    case Invoked(c) => Invoke(s, c).0
    case Transported(e) => Deliver(s, e)
    case TransportedAside(k, e) => if k < |s.replaced| then DeliverReplaced(s, k, e) else s
  }

  function Drive(s: Service, inputs: seq<Input>): Service
    decreases |inputs|
  {
    if inputs == [] then s else Drive(Apply(s, inputs[0]), inputs[1..])
  }

  /** A socket carries the counting `connect_error` handler at most once. */
  predicate CountsOnce(sock: Socket) {
    Count(Listeners(sock, ConnectErrorTopic), OnConnectError) <= 1
  }

  /** Every socket the service still hears from, the handle's and each replaced one, carries
      the counting handler at most once. */
  predicate WellFormed(s: Service) {
    && (s.socket.Some? ==> CountsOnce(s.socket.value))
    && forall k :: 0 <= k < |s.replaced| ==> CountsOnce(s.replaced[k])
  }

  lemma InvokeKeepsWellFormed(s: Service, c: Call)
    requires WellFormed(s)
    ensures WellFormed(Invoke(s, c).0)
  {
    if c.Init? {
      InitKeepsWellFormed(s, c.token);
    } else if c.Off? {
      OffKeepsWellFormed(s, c.event, c.tag);
    } else if c.IsRegistration() {
      assert Count(Handlers(Invoke(s, c).0, ConnectErrorTopic), OnConnectError)
             <= Count(Handlers(s, ConnectErrorTopic), OnConnectError);
    } else if c.Disconnect? {
      assert Handlers(Invoke(s, c).0, ConnectErrorTopic) == [];
    } else {
      assert Invoke(s, c).0.socket == s.socket;
    }
  }

  lemma InitKeepsWellFormed(s: Service, token: string)
    requires WellFormed(s)
    ensures WellFormed(InitSocket(s, token))
  {
    if !IsConnected(s) {
      assert Handlers(InitSocket(s, token), ConnectErrorTopic) == [OnConnectError];
    }
  }

  lemma OffKeepsWellFormed(s: Service, event: string, tag: string)
    requires WellFormed(s)
    ensures WellFormed(Unregister(s, event, tag).0)
  {
    if s.socket.Some? && TopicOf(event) == ConnectErrorTopic {
      var before := Handlers(s, ConnectErrorTopic);
      RemoveFirstMultiset(before, Client(tag));
      assert multiset(Handlers(Unregister(s, event, tag).0, ConnectErrorTopic)) == multiset(before) - multiset{Client(tag)};
    }
  }

  /** Every state the service can reach from its constructor keeps the base handler single. */
  lemma {:induction false} ReachableIsWellFormed(s: Service, inputs: seq<Input>)
    requires WellFormed(s)
    ensures WellFormed(Drive(s, inputs))
    decreases |inputs|
  {
    if inputs != [] {
      var next := Apply(s, inputs[0]);
      if inputs[0].Invoked? {
        InvokeKeepsWellFormed(s, inputs[0].call);
      }
      ReachableIsWellFormed(next, inputs[1..]);
    }
  }

  /** While the base handler is registered, each `connect_error` adds exactly one attempt. */
  lemma ConnectFailureAddsOne(s: Service)
    requires s.socket.Some? && CountsOnce(s.socket.value)
    requires OnConnectError in Handlers(s, ConnectErrorTopic)
    ensures Deliver(s, ConnectFailed).reconnectAttempts == s.reconnectAttempts + 1
  {
    assert Count(Handlers(s, ConnectErrorTopic), OnConnectError) >= 1;
  }

  /** On a socket `init` just installed, `connect` resets the counter to zero and each
      `connect_error` adds one. */
  lemma FreshSocketCountsAttempts(s: Service, token: string)
    requires !IsConnected(s)
    ensures Deliver(InitSocket(s, token), Connected).reconnectAttempts == 0
    ensures Deliver(InitSocket(s, token), ConnectFailed).reconnectAttempts == s.reconnectAttempts + 1
  {
    var r := InitSocket(s, token);
    assert Handlers(r, ConnectTopic) == [OnConnect];
    assert Handlers(r, ConnectErrorTopic) == [OnConnectError];
    assert Count([OnConnectError], OnConnectError) == 1;
  }

  lemma RunCons(s: Service, c: Call, rest: seq<Call>)
    ensures Run(s, [c] + rest).0 == Run(Invoke(s, c).0, rest).0
    ensures Run(s, [c] + rest).1 == [Invoke(s, c).1] + Run(Invoke(s, c).0, rest).1
  {
    assert ([c] + rest)[1..] == rest;
  }

  /** Two calls in a row: the second starts from the state the first leaves. */
  lemma RunTwo(s: Service, c1: Call, c2: Call)
    ensures var (s1, o1) := Invoke(s, c1);
            var (s2, o2) := Invoke(s1, c2);
            Run(s, [c1, c2]) == (s2, [o1, o2])
  {
    assert [c1] + [c2] == [c1, c2] && [c2] + [] == [c2];
    RunCons(s, c1, [c2]);
    var (s1, o1) := Invoke(s, c1);
    var (s2, o2) := Invoke(s1, c2);
    RunCons(s1, c2, []);
    assert Run(s2, []) == (s2, []);
    assert [o1] + ([o2] + []) == [o1, o2];
  }

  /** Three calls in a row, each starting from the state the one before leaves. */
  lemma RunThree(s: Service, c1: Call, c2: Call, c3: Call)
    ensures var (s1, o1) := Invoke(s, c1);
            var (s2, o2) := Invoke(s1, c2);
            var (s3, o3) := Invoke(s2, c3);
            Run(s, [c1, c2, c3]) == (s3, [o1, o2, o3])
  {
    var (s1, o1) := Invoke(s, c1);
    assert [c1, c2, c3] == [c1] + [c2, c3];
    RunCons(s, c1, [c2, c3]);
    RunTwo(s1, c2, c3);
    var (s2, o2) := Invoke(s1, c2);
    var (s3, o3) := Invoke(s2, c3);
    assert [o1] + [o2, o3] == [o1, o2, o3];
  }

  /** Subscribing on an open socket returns and continues from the registry with one more handler. */
  lemma RunOn(s: Service, category: Category, tag: string, rest: seq<Call>)
    requires s.socket.Some?
    ensures var s1 := Register(s, category, tag).0;
            Run(s, [On(category, tag)] + rest)
            == (Run(s1, rest).0, [Returned] + Run(s1, rest).1)
  {
    RunCons(s, On(category, tag), rest);
  }

  /** Registrations on an open socket all return, send nothing and keep the socket and its options. */
  lemma {:induction false} RegistrationsReturn(s: Service, calls: seq<Call>)
    requires s.socket.Some?
    requires forall i :: 0 <= i < |calls| ==> calls[i].On?
    ensures var r := Run(s, calls);
            && r.0.socket.Some? && r.0.socket.value.options == s.socket.value.options
            && r.0.sent == s.sent
            && forall k :: 0 <= k < |r.1| ==> r.1[k] == Returned
    decreases |calls|
  {
    if calls != [] {
      var c := calls[0];
      var s1 := Register(s, c.category, c.tag).0;
      assert calls == [c] + calls[1..];
      RunOn(s, c.category, c.tag, calls[1..]);
      RegistrationsReturn(s1, calls[1..]);
    }
  }

  /** The handlers a sequence of calls subscribes to `category`, in call order. */
  function Subscribers(calls: seq<Call>, category: Category): seq<Callback>
    decreases |calls|
  {
    if calls == [] then [] else Subscriber(calls[0], category) + Subscribers(calls[1..], category)
  }

  /** The handler one call subscribes to `category`, if any. */
  function Subscriber(c: Call, category: Category): seq<Callback> {
    if c.On? && c.category == category then [Client(c.tag)] else []
  }

  /** Registrations on an open socket append, under each category, exactly the handlers
      subscribed to it, in the order of the calls; earlier handlers stay where they were. */
  lemma {:induction false} RegistrationsAppend(s: Service, calls: seq<Call>, category: Category)
    requires s.socket.Some?
    requires forall i :: 0 <= i < |calls| ==> calls[i].On?
    ensures Handlers(Run(s, calls).0, Push(category)) == Handlers(s, Push(category)) + Subscribers(calls, category)
    decreases |calls|
  {
    if calls != [] {
      var c := calls[0];
      var s1 := Register(s, c.category, c.tag).0;
      assert calls == [On(c.category, c.tag)] + calls[1..];
      RunOn(s, c.category, c.tag, calls[1..]);
      RegistrationsAppend(s1, calls[1..], category);
      RegisterAppendsOwn(s, c, category, Subscribers(calls[1..], category));
    }
  }

  lemma RegisterAppendsOwn(s: Service, c: Call, category: Category, later: seq<Callback>)
    requires s.socket.Some? && c.On?
    ensures Handlers(Register(s, c.category, c.tag).0, Push(category)) + later
            == Handlers(s, Push(category)) + (Subscriber(c, category) + later)
  {
  }

  lemma ConsSplit<T>(a: seq<T>, b: seq<T>)
    requires a != []
    ensures a == [a[0]] + a[1..] && a + b == [a[0]] + (a[1..] + b)
  {
  }

  lemma ConsAssoc<T>(x: T, p: seq<T>, q: seq<T>)
    ensures [x] + (p + q) == [x] + p + q
  {
  }

  lemma {:induction false} RunAppend(s: Service, a: seq<Call>, b: seq<Call>)
    ensures Run(s, a + b).0 == Run(Run(s, a).0, b).0
    ensures Run(s, a + b).1 == Run(s, a).1 + Run(Run(s, a).0, b).1
    decreases |a|
  {
    if a == [] {
      assert a + b == b;
    } else {
      ConsSplit(a, b);
      RunCons(s, a[0], a[1..] + b);
      RunCons(s, a[0], a[1..]);
      var s1 := Invoke(s, a[0]).0;
      RunAppend(s1, a[1..], b);
      ConsAssoc(Invoke(s, a[0]).1, Run(s1, a[1..]).1, Run(Run(s1, a[1..]).0, b).1);
    }
  }

  /** `n` failed connection attempts in a row. */
  function Failures(n: nat): (r: seq<Input>)
    ensures |r| == n
    ensures forall k :: 0 <= k < n ==> r[k] == Transported(ConnectFailed)
  {
    if n == 0 then [] else [Transported(ConnectFailed)] + Failures(n - 1)
  }

  lemma {:induction false} DriveAppend(s: Service, a: seq<Input>, b: seq<Input>)
    ensures Drive(s, a + b) == Drive(Drive(s, a), b)
    decreases |a|
  {
    if a == [] {
      assert a + b == b;
    } else {
      assert (a + b)[1..] == a[1..] + b;
      DriveAppend(Apply(s, a[0]), a[1..], b);
    }
  }

  /** While the base handler is registered once, `n` failures in a row add exactly `n` to the
      counter and leave the socket as it was. */
  lemma {:induction false} FailuresAccumulate(s: Service, n: nat)
    requires s.socket.Some? && CountsOnce(s.socket.value)
    requires OnConnectError in Handlers(s, ConnectErrorTopic)
    ensures Drive(s, Failures(n)).reconnectAttempts == s.reconnectAttempts + n
    ensures Drive(s, Failures(n)).socket == s.socket
    decreases n
  {
    if n > 0 {
      ConnectFailureAddsOne(s);
      var s1 := Deliver(s, ConnectFailed);
      assert Failures(n)[1..] == Failures(n - 1);
      FailuresAccumulate(s1, n - 1);
    }
  }

  /** The counter is not bounded by the reconnection cap: it is never reset by `init` or
      `disconnect`, so failures on a second socket add to those of the first. */
  lemma AttemptsCanExceedCap(token: string)
    ensures var inputs := [Invoked(Init(token))] + Failures(MaxReconnectAttempts)
                          + [Invoked(Disconnect), Invoked(Init(token))] + Failures(1);
            Drive(New(), inputs).reconnectAttempts == MaxReconnectAttempts + 1
  {
    var open := [Invoked(Init(token))];
    var reopen := [Invoked(Disconnect), Invoked(Init(token))];
    var s1 := Drive(New(), open);
    assert open[1..] == [];
    assert Apply(New(), open[0]) == InitSocket(New(), token);
    assert s1 == Drive(Apply(New(), open[0]), []);
    assert Handlers(s1, ConnectErrorTopic) == [OnConnectError];
    assert Count([OnConnectError], OnConnectError) == 1;
    FailuresAccumulate(s1, MaxReconnectAttempts);
    var s2 := Drive(s1, Failures(MaxReconnectAttempts));
    var s3 := Drive(s2, reopen);
    assert reopen[1..] == [Invoked(Init(token))] && reopen[1..][1..] == [];
    assert Apply(s2, reopen[0]) == ReleaseSocket(s2);
    assert Drive(ReleaseSocket(s2), reopen[1..]) == Drive(InitSocket(ReleaseSocket(s2), token), []);
    assert s3 == InitSocket(ReleaseSocket(s2), token);
    assert Handlers(s3, ConnectErrorTopic) == [OnConnectError];
    FailuresAccumulate(s3, 1);
    DriveAppend(New(), open, Failures(MaxReconnectAttempts));
    DriveAppend(New(), open + Failures(MaxReconnectAttempts), reopen);
    DriveAppend(New(), open + Failures(MaxReconnectAttempts) + reopen, Failures(1));
  }

  /** `init` is not idempotent before the first `connect`: a second call opens another socket
      and sets the first one aside without closing it. */
  lemma InitBeforeConnectOpensAgain(s: Service, token: string)
    requires !IsConnected(s)
    ensures var first := InitSocket(s, token);
            var second := InitSocket(first, token);
            && second.created == s.created + 2
            && |second.replaced| == |first.replaced| + 1
            && second.replaced[|first.replaced|] == first.socket.value
  {
  }

  /** A socket set aside by `init` keeps acting on the counter: when it connects, its base
      handler zeroes the counter, although the handle's own socket has just failed and is not
      connected. */
  lemma ReplacedConnectResetsCounter(s: Service, token: string)
    requires s.socket.Some? && !IsConnected(s)
    requires OnConnect in Handlers(s, ConnectTopic)
    ensures var installed := InitSocket(s, token);
            var failed := Deliver(installed, ConnectFailed);
            && |failed.replaced| == |s.replaced| + 1
            && failed.reconnectAttempts == s.reconnectAttempts + 1
            && DeliverReplaced(failed, |s.replaced|, Connected).reconnectAttempts == 0
            && !IsConnected(DeliverReplaced(failed, |s.replaced|, Connected))
  {
  }

  /** With no handle, every call except `init` fails (or, for `disconnect`, does nothing), and
      the service, including what it has sent, stays as it was. */
  lemma {:induction false} NullHandleCallsFail(s: Service, calls: seq<Call>)
    requires s.socket.None?
    requires forall i :: 0 <= i < |calls| ==> !calls[i].Init?
    ensures Run(s, calls).0 == s
    ensures forall i :: 0 <= i < |calls| ==>
              if calls[i].Disconnect? then Run(s, calls).1[i] == Returned else Failed(Run(s, calls).1[i])
    decreases |calls|
  {
    if calls != [] {
      var (s1, o) := Invoke(s, calls[0]);
      assert s1 == s;
      NullHandleCallsFail(s, calls[1..]);
      var os := Run(s, calls[1..]).1;
      assert Run(s, calls).1 == [o] + os;
      forall i | 0 <= i < |calls|
        ensures if calls[i].Disconnect? then Run(s, calls).1[i] == Returned else Failed(Run(s, calls).1[i])
      {
        if i > 0 {
          assert calls[i] == calls[1..][i - 1];
        }
      }
    }
  }

  /** After `disconnect`, no call but `init` reaches the server. */
  lemma CallsAfterDisconnectFail(s: Service, calls: seq<Call>)
    requires forall i :: 0 <= i < |calls| ==> !calls[i].Init?
    ensures Run(ReleaseSocket(s), calls).0.sent == s.sent
    ensures Run(ReleaseSocket(s), calls).0.socket.None?
    ensures forall i :: 0 <= i < |calls| && !calls[i].Disconnect? ==> Failed(Run(ReleaseSocket(s), calls).1[i])
  {
    NullHandleCallsFail(ReleaseSocket(s), calls);
  }

  lemma DisconnectIsIdempotent(s: Service)
    ensures ReleaseSocket(ReleaseSocket(s)) == ReleaseSocket(s)
    ensures ReleaseSocket(s).socket.None?
  {
  }

  /** Removing the first occurrence of `x` from a list whose prefix `xs` lacks it removes
      exactly that occurrence. */
  lemma {:induction false} RemoveFirstAfterPrefix<T>(xs: seq<T>, x: T, ys: seq<T>)
    requires x !in xs
    ensures RemoveFirst(xs + [x] + ys, x) == xs + ys
    decreases |xs|
  {
    var zs := xs + [x] + ys;
    if xs == [] {
      assert zs[0] == x && zs[1..] == ys;
    } else {
      assert zs[0] == xs[0] && zs[0] != x;
      assert zs[1..] == xs[1..] + [x] + ys;
      assert RemoveFirst(zs, x) == [zs[0]] + RemoveFirst(zs[1..], x);
      RemoveFirstAfterPrefix(xs[1..], x, ys);
      assert [xs[0]] + (xs[1..] + ys) == xs + ys;
    }
  }

  /** Subscribing a new handler and then unsubscribing it leaves every category as it was. */
  lemma OnThenOffRestores(s: Service, category: Category, tag: string)
    requires s.socket.Some?
    requires Client(tag) !in Handlers(s, Push(category))
    ensures var s1 := Register(s, category, tag).0;
            var s2 := Unregister(s1, category.Name(), tag).0;
            forall t :: Handlers(s2, t) == Handlers(s, t)
  {
    var s1 := Register(s, category, tag).0;
    var s2 := Unregister(s1, category.Name(), tag).0;
    TopicRoundTrip(Push(category));
    RemoveFirstAfterPrefix(Handlers(s, Push(category)), Client(tag), []);
    assert Handlers(s, Push(category)) + [Client(tag)] + [] == Handlers(s1, Push(category));
  }

  /** `removeAllListeners` takes the base handlers with it: once the `connect_error` list is
      emptied a failure no longer counts, and once the `connect` list is emptied a connect no
      longer resets the counter. */
  lemma RemovedBaseHandlersStopCounting(s: Service)
    requires s.socket.Some?
    ensures Deliver(UnregisterAll(s, ConnectErrorEvent).0, ConnectFailed).reconnectAttempts == s.reconnectAttempts
    ensures Deliver(UnregisterAll(s, ConnectEvent).0, Connected).reconnectAttempts == s.reconnectAttempts
  {
    assert TopicOf(ConnectErrorEvent) == ConnectErrorTopic;
    assert TopicOf(ConnectEvent) == ConnectTopic;
  }

  /** `createLobby(name)` without a privacy flag asks for a public lobby. */
  lemma CreateLobbyDefaultsToPublic(s: Service, name: string)
    requires s.socket.Some?
    ensures Invoke(s, CreateLobby(name, None)) == Invoke(s, CreateLobby(name, Some(false)))
    ensures Invoke(s, CreateLobby(name, None)).0.sent
            == s.sent + [Message(CreateLobbyRequest, NewLobby(name, false), true)]
  {
  }

  /** Each command or notification hands exactly one message of its own name to the socket;
      only commands wait for an acknowledgment. */
  lemma EmitSendsOneMessage(s: Service, c: Call)
    requires s.socket.Some?
    requires c.IsCommand() || c.IsNotification()
    ensures var r := Invoke(s, c);
            && |r.0.sent| == |s.sent| + 1
            && r.0.sent[..|s.sent|] == s.sent
            && r.0.sent[|s.sent|].kind.Name() == EventName(c)
            && (r.0.sent[|s.sent|].awaitsAck <==> c.IsCommand())
            && (r.1.Pending? <==> c.IsCommand())
  {
    var r := Invoke(s, c);
    assert r.0.sent == s.sent + [RequestOf(c)];
  }

  /** Two calls hand the socket the same message exactly when they are the same call, except
      that `createLobby` without a flag is the same as with `false`: the server can tell every
      other pair of calls apart. */
  lemma MessagesIdentifyCalls(c1: Call, c2: Call)
    requires c1.IsCommand() || c1.IsNotification()
    requires c2.IsCommand() || c2.IsNotification()
    ensures RequestOf(c1) == RequestOf(c2) <==>
            c1 == c2 || (c1.CreateLobby? && c2.CreateLobby? && c1.name == c2.name
                         && c1.isPrivate.GetOr(false) == c2.isPrivate.GetOr(false))
  {
  }

  /** The event name each command is emitted under: the method's own name. */
  function EventName(c: Call): string
    requires c.IsCommand() || c.IsNotification()
  {
    match c
    case CreateLobby(_, _) => "createLobby"
    case JoinLobby(_) => "joinLobby"
    case JoinPrivateLobby(_) => "joinPrivateLobby"
    case LeaveLobby => "leaveLobby"
    case JoinGame(_) => "joinGame"
    case PlayCard(_, _) => "playCard"
    case DrawCards(_) => "drawCards"
  }
}
